=== FILE: README.md ===
# Timetable simplifier: a Dafny model

The program reads school timetables exported as PDF. Each page has a week
grid, with one row per day and one cell per period. It also has a bottom
table listing each lesson with its teacher and its room. The program
reduces every messy grid cell to a clean lesson name, and it groups the
lessons by teacher. A Streamlit front end shows the teacher schedules as
HTML and writes them to a PDF.

This project models the pure core of that pipeline:

- `text.dfy` (module `Text`): Python's whitespace, `split`/`join`,
  `splitlines`, `replace` and `strip` on the cell text, and `_norm` built
  from them.
- `casing.dfy` (module `Casing`): `str.upper`/`str.lower` as character
  tables, and `_norm_upper`.
- `sorting.dfy` (module `Sorting`): Python's code-point ordering of `str`,
  `sorted` of a set, `list.sort` of a list, and the list-comprehension filter.
- `catalog.dfy` (module `Catalog`): the lesson catalog built by
  `extract_catalog_from_bottom_table`, and the fuzzy lookup
  `best_lesson_match`. The similarity ratio is a function parameter with
  values in [0, 1].
- `classifier.dfy` (module `Classifier`): the teacher-line and
  location-line heuristics, `extract_lesson_name_from_cell`, and
  `make_simplified_schedule`.
- `apptext.dfy` (module `AppText`): the front end's `esc`, `_first_upper`
  and `parse_class_name`.
- `schedules.dfy` (module `TeacherSchedules`): the per-teacher merge of page
  and file schedules, the total-hours count, and the teacher selection of
  the HTML preview and of the PDF.
- `results.dfy` (module `Results`): `Option` and `Result`.

Two behaviours of the code are modelled as written, although the
surrounding code suggests something else was intended:

- **The catalog's early returns fail.** For a page without tables, or a
  last table without data rows, `extract_catalog_from_bottom_table`
  evidently means to return an empty `LessonCatalog`: at
  extract_simplified_schedule.py:74 and :79 it builds one with an empty
  name tuple and empty word sets. Those constructor calls omit the
  mandatory `raw_by_norm` field, so both paths raise a TypeError.
  `BuildCatalog` and `CatalogFromTables` return `Err(NoDataRows)` and
  `Err(NoTables)` there.
- **Weekend rows are kept.** `DAY_NAMES` (extract_simplified_schedule.py:19)
  lists seven days, including "Cumartesi" and "Pazar", so
  `make_simplified_schedule` keeps Saturday and Sunday rows. The front
  end's short-name table (app.py:44-50) has only the five weekdays.
  `WeekendRowsKept` states that weekend rows are kept.

## Model

| member | source | states |
|---|---|---|
| Text.ReplaceAll | extract_simplified_schedule.py:23 | Replacing every `c` by a text without `c` leaves no `c`, and a text without `c` is unchanged |
| Text.ReplaceAllConcat | app.py:75 | Replacing a character distributes over concatenation |
| Text.ReplaceSpaceBySpace | extract_simplified_schedule.py:23 | Replacing one whitespace character (NBSP) by another (space) keeps a text all-whitespace exactly when it was |
| Text.DropSpaces | extract_simplified_schedule.py:24 | The left strip is no longer than its input and does not start with whitespace |
| Text.LeadingSpaces | extract_simplified_schedule.py:24 | The left strip is a suffix of the input, and what it drops is all whitespace |
| Text.DropTrailingSpaces | extract_simplified_schedule.py:24 | The right strip is no longer than its input and does not end with whitespace |
| Text.TrailingSpaces | extract_simplified_schedule.py:24 | The right strip is a prefix of the input, and what it drops is all whitespace |
| Text.Strip | extract_simplified_schedule.py:24 | The stripped text has whitespace at neither end |
| Text.StripEmpty | extract_simplified_schedule.py:24 | Stripping leaves nothing exactly when the text is all whitespace |
| Text.StripShape | extract_simplified_schedule.py:24 | Stripping keeps "only plain blanks" and "no two blanks in a row" |
| Text.StripEdgeFree | extract_simplified_schedule.py:24 | Stripping a text without edge whitespace returns it unchanged |
| Text.Collapse | extract_simplified_schedule.py:24 | Collapsing whitespace runs leaves only single plain blanks; it is empty exactly when its input is, and it starts with whitespace exactly when its input does |
| Text.CollapseAllSpace | extract_simplified_schedule.py:24 | A collapsed text is all whitespace exactly when its input is |
| Text.CollapseShaped | extract_simplified_schedule.py:24 | Collapsing a text that already has single plain blanks changes nothing |
| Text.Norm | extract_simplified_schedule.py:22-25 | `_norm` yields normal text (single plain blanks, none at either end) without NBSP |
| Text.NormEmpty | extract_simplified_schedule.py:22-25 | `_norm` yields the empty text exactly when its input is all whitespace |
| Text.NormOfNormal | extract_simplified_schedule.py:22-25 | `_norm` leaves normal text unchanged |
| Text.NormIdempotent | extract_simplified_schedule.py:22-25 | Normalising twice is normalising once |
| Text.TakeWord | extract_simplified_schedule.py:139 | The first token is a whitespace-free prefix that ends at whitespace or at the end of the text |
| Text.SplitWords | extract_simplified_schedule.py:139 | `str.split()` yields non-empty tokens without whitespace |
| Text.SplitWordsEmpty | extract_simplified_schedule.py:139 | `str.split()` yields nothing exactly when the text is all whitespace |
| Text.SplitWordsAvoid | extract_simplified_schedule.py:112-113 | Tokens of a text without a character do not contain it (no comma survives in the teacher tokens) |
| Text.Unwords | extract_simplified_schedule.py:185 | `" ".join` starts with the first word's first character and contains only blanks and characters of the words |
| Text.SplitUnwords | extract_simplified_schedule.py:207-208 | Splitting the blank-joined proper words gives the words back |
| Text.UnwordsNormal | extract_simplified_schedule.py:185 | Joining proper words gives normal text, non-empty when there is a word |
| Text.UnwordsNormalLines | extract_simplified_schedule.py:185 | Joining non-empty normal lines by single spaces gives normal text |
| Text.SplitSpaceHead | extract_simplified_schedule.py:24 | A leading whitespace character does not change the words |
| Text.SplitDropSpaces | extract_simplified_schedule.py:24 | Dropping leading whitespace does not change the words |
| Text.SplitWordHead | extract_simplified_schedule.py:139 | A non-whitespace character in front starts a new word before empty text or whitespace, and otherwise joins the first word |
| Text.SplitSpacedAlike | extract_simplified_schedule.py:23-24 | Texts with whitespace at the same positions and the same other characters have the same words |
| Text.ReplaceOneChar | extract_simplified_schedule.py:23 | Replacing a character by one character changes exactly that character's positions and keeps the length |
| Text.SplitReplaceSpace | extract_simplified_schedule.py:23 | Replacing NBSP by a space does not change the words |
| Text.SplitCollapse | extract_simplified_schedule.py:24 | Collapsing whitespace runs does not change the words |
| Text.SplitTrailing | extract_simplified_schedule.py:24 | Trailing whitespace does not change the words |
| Text.SplitStrip | extract_simplified_schedule.py:24 | Stripping does not change the words |
| Text.SplitConcat | extract_simplified_schedule.py:24 | Text cut where one side has whitespace splits into the words before the cut followed by the words after it |
| Text.SplitConcatSpaceStep | extract_simplified_schedule.py:24 | The step of that fact past a leading whitespace character |
| Text.SplitConcatWordStep | extract_simplified_schedule.py:24 | The step of that fact past a leading non-whitespace character |
| Text.SplitBeforeSpace | extract_simplified_schedule.py:24 | The step when a whitespace character follows the first character |
| Text.SplitIntoWord | extract_simplified_schedule.py:24 | The step when the first word goes on past the first character |
| Text.SplitOneWord | extract_simplified_schedule.py:24 | Non-empty text without whitespace is one word |
| Text.FirstWord | extract_simplified_schedule.py:24 | Text with a word is leading whitespace, its first word, and a rest that is empty or starts with whitespace |
| Text.WordInContext | extract_simplified_schedule.py:24 | Every word of a text stands between whitespace or the text's ends |
| Text.SplitReplaceKeeps | extract_simplified_schedule.py:112-113 | Replacing a non-whitespace character by a space keeps every word that does not contain it |
| Text.NormalRest | extract_simplified_schedule.py:24 | In normal text, a first word that is not the whole text is followed by one plain space and a normal, non-empty rest |
| Text.NormalSplitStep | extract_simplified_schedule.py:24 | The words of normal text are its first word, then the words after the space that ends it |
| Text.NormalOneWord | extract_simplified_schedule.py:24 | Normal text without a space is its own only word |
| Text.NormalJoinStep | extract_simplified_schedule.py:24 | Normal text whose rest after the first word is its joined words is itself its joined words |
| Text.NormalIsJoinedSplit | extract_simplified_schedule.py:24 | Normal text is its words joined by single spaces |
| Text.NormIsJoinedSplit | extract_simplified_schedule.py:22-25 | `_norm(s)` equals `" ".join(s.split())`: the content, not only the shape, of the normal form |
| Text.SplitLines | extract_simplified_schedule.py:170 | `str.splitlines()` yields lines without line breaks, and nothing exactly for the empty text |
| Text.SplitLinesAllSpace | extract_simplified_schedule.py:170-173 | The lines of an all-whitespace cell are all whitespace |
| Text.CountIn | extract_simplified_schedule.py:143 | The count of known tokens is at most the token count; it equals it exactly when every token is known, and it is 0 exactly when none is |
| Text.CountInTwoMisses | extract_simplified_schedule.py:156-157 | Two unknown tokens bring the count down to at most the token count minus 2 |
| Casing.UpperChar | extract_simplified_schedule.py:30 | Upper-casing a character gives a non-empty text; whitespace maps to itself, and anything else gives text without whitespace |
| Casing.Upper | extract_simplified_schedule.py:30 | `str.upper()` yields the empty text exactly for the empty text |
| Casing.Lower | app.py:59 | `str.lower()` yields the empty text exactly for the empty text |
| Casing.UpperEnds | extract_simplified_schedule.py:30 | Upper-casing keeps whether the first and the last characters are whitespace |
| Casing.UpperShape | extract_simplified_schedule.py:30 | Upper-casing keeps normal text normal |
| Casing.NormUpper | extract_simplified_schedule.py:28-30 | `_norm_upper` yields normal text, empty exactly when the input is all whitespace |
| Sorting.LessIrreflexive | app.py:67 | The `str` ordering is irreflexive |
| Sorting.LessTransitive | app.py:67 | The `str` ordering is transitive |
| Sorting.LessTrichotomy | app.py:67 | Any two texts are equal or ordered one way |
| Sorting.LessAsymmetric | app.py:67 | The `str` ordering is asymmetric |
| Sorting.LeastExists | extract_simplified_schedule.py:128 | A non-empty set of texts has a least element |
| Sorting.SortSet | extract_simplified_schedule.py:128 | `sorted` of a set lists exactly its elements, each once, in strictly ascending order |
| Sorting.Insert | app.py:299 | Inserting into a sorted list keeps it sorted and adds exactly that element |
| Sorting.SortSeq | app.py:299 | `list.sort()` yields a sorted permutation of its input |
| Sorting.SortedDistinctIsStrict | app.py:299 | A sorted list without repeats is strictly ascending |
| Sorting.StrictlySortedUnique | app.py:67-70 | Two strictly ascending lists with the same elements are equal |
| Sorting.SortSeqOfSorted | app.py:70 | Sorting an already sorted list changes nothing |
| Sorting.KeepIn | app.py:69 | The filter keeps exactly the elements that are in the kept set |
| Sorting.KeepInCounts | app.py:298 | The filter keeps every occurrence of a kept element and none of the others |
| Sorting.KeepInStrictlySorted | app.py:69 | Filtering a strictly ascending list keeps it strictly ascending |
| Catalog.Lead | extract_simplified_schedule.py:55-61 | The running best of the loop is either nothing, when every score is 0, or the first position with the highest score |
| Catalog.LeadFindsFirstBest | extract_simplified_schedule.py:55-61 | A position is the loop's leader exactly when it is the first highest-scoring, positive-scoring position |
| Catalog.FirstBestUnique | extract_simplified_schedule.py:57-61 | There is at most one first best position |
| Catalog.MatchWith | extract_simplified_schedule.py:48-65 | A match exists exactly when the candidate is non-blank and its first best name is non-empty and reaches the threshold; the match is that name's original spelling |
| Catalog.BestLessonMatch | extract_simplified_schedule.py:48-65 | `best_lesson_match` at threshold 0.6: the original spelling of the first best-scoring non-empty name scoring at least 0.6, otherwise none |
| Catalog.ThresholdMonotone | extract_simplified_schedule.py:63 | A match found at a threshold is the match at every lower threshold |
| Catalog.ExactNameMatches | extract_simplified_schedule.py:48-65 | With a ratio that is 1 only for identical texts, a candidate normalising to a catalog name matches that name's spelling |
| Catalog.MatchIsSpelling | extract_simplified_schedule.py:64 | In a well-formed catalog, every match is one of the recorded original spellings |
| Catalog.NormRow | extract_simplified_schedule.py:81 | Normalising the header keeps its length and makes every cell normal text |
| Catalog.ColumnOf | extract_simplified_schedule.py:82-92 | A column is found only for a non-empty title, at the last header cell with that title; none is found when no cell has it |
| Catalog.CellAt | extract_simplified_schedule.py:102 | A cell is read exactly when the column exists and lies inside the row |
| Catalog.LessonEntries | extract_simplified_schedule.py:99-108 | One entry per data row, each the normalised spelling and its upper-case key |
| Catalog.TeacherTokens | extract_simplified_schedule.py:109-116 | A teacher word is exactly a token of at least two characters of the upper-normalised cell once commas count as spaces; so every comma-free token of two or more characters of the cell is one, and none has whitespace or a comma |
| Catalog.LocationTokens | extract_simplified_schedule.py:117-121 | A location word is exactly a token of at least two characters of the upper-normalised cell |
| Catalog.GatherWordsHas | extract_simplified_schedule.py:99-121 | A word is gathered for a column exactly when some data row that has that cell adds it |
| Catalog.GatheredWords | extract_simplified_schedule.py:99-121 | The gathered words are exactly the words the data rows add |
| Catalog.GatherKeys | extract_simplified_schedule.py:104-106 | A key is collected exactly when it is non-empty and some row has it |
| Catalog.GatherFirstSpelling | extract_simplified_schedule.py:108 | A key keeps the spelling of the first row that has it |
| Catalog.Assemble | extract_simplified_schedule.py:94-132 | The built catalog has strictly ascending lesson names and a spelling for exactly the names; its teacher words are exactly those the data rows' teacher cells add, and its location words exactly those their location cells add plus the seed words |
| Catalog.AssembledIsWellFormed | extract_simplified_schedule.py:94-132 | The assembled catalog is well formed: names sorted, names and spellings non-empty normal text, word sets of tokens |
| Catalog.AssembledNames | extract_simplified_schedule.py:99-106 | A lesson name is in the catalog exactly when some data row gives it as a non-empty key |
| Catalog.AssembledSpelling | extract_simplified_schedule.py:107-108 | A name's spelling is that of the first data row with that key |
| Catalog.BuiltWord | extract_simplified_schedule.py:99 | A data row adds a word exactly when the same row of the whole table, past the header, does |
| Catalog.BuiltTeacherWords | extract_simplified_schedule.py:109-116 | The teacher words of a built catalog are exactly those the table's data rows add |
| Catalog.BuiltLocationWords | extract_simplified_schedule.py:117-125 | The location words of a built catalog are exactly the seed words and those the table's data rows add |
| Catalog.BuildCatalog | extract_simplified_schedule.py:77-132 | A last table with fewer than two rows is an error (the TypeError); otherwise the catalog is well formed, names exactly the non-empty keys of the data rows, keeps each key's first spelling, and holds exactly the data rows' teacher words and their location words plus the seed words |
| Catalog.CatalogFromTables | extract_simplified_schedule.py:72-77 | No tables is an error; otherwise the catalog is built from the last table |
| Classifier.FindWord | extract_simplified_schedule.py:151 | The search succeeds exactly when the word occurs with a word boundary on each side |
| Classifier.LineWords | extract_simplified_schedule.py:136-139 | The line's tokens are proper words, none exactly when the line is blank |
| Classifier.TeacherLineMeans | extract_simplified_schedule.py:135-144 | A teacher line is a non-blank line of at most 4 tokens, every one a teacher word |
| Classifier.LabMakesLocation | extract_simplified_schedule.py:151-152 | A line with the word LAB is a location line |
| Classifier.LocationLineWithoutLab | extract_simplified_schedule.py:153-157 | Without LAB, a location line has 1 to 6 tokens, at least one a location word, and at most one that is not |
| Classifier.LocationLineFromTokens | extract_simplified_schedule.py:153-157 | Conversely, 1 to 6 tokens with at least one location word and at most one other word make a location line |
| Classifier.NonBlankLines | extract_simplified_schedule.py:170-171 | The kept lines are non-empty normal text, and there are no more of them than input lines |
| Classifier.NonBlankLinesEmpty | extract_simplified_schedule.py:170-173 | Nothing is kept exactly when every line is blank |
| Classifier.NonBlankLinesAppend | extract_simplified_schedule.py:170-171 | Lines are filtered one by one and in order: two lists one after the other give the two results one after the other |
| Classifier.NonBlankLinesOne | extract_simplified_schedule.py:170-171 | A single line is kept, normalised, exactly when its normal form is not empty |
| Classifier.KeptPrefix | extract_simplified_schedule.py:175-179 | The kept lines are a prefix without a stop line, followed by a stop line or the end |
| Classifier.KeptPrefixUnique | extract_simplified_schedule.py:175-179 | That prefix is the only one with these properties |
| Classifier.ScanPrefix | extract_simplified_schedule.py:175-179 | The loop with `break` computes the kept prefix |
| Classifier.KeptBeforeBreak | extract_simplified_schedule.py:175-179 | The kept lines are neither teacher nor location lines, and the line after them is one |
| Classifier.KeptLines | extract_simplified_schedule.py:175-183 | The lines used are a prefix of the cell's lines, non-empty when there are lines |
| Classifier.ScanKept | extract_simplified_schedule.py:175-183 | The scan loop followed by the one-or-two-line fallback yields those lines |
| Classifier.Candidate | extract_simplified_schedule.py:185 | The candidate is the kept lines joined by single spaces, which is already normal, and non-empty when a line was kept |
| Classifier.Cleaned | extract_simplified_schedule.py:194-205 | The clean-up keeps only tokens that are not teacher words, location words or numbers, keeps every such token, and keeps the tokens proper words |
| Classifier.CleanedAppend | extract_simplified_schedule.py:197-205 | The clean-up of two token lists one after the other is the two clean-ups one after the other, so order and repeats are kept |
| Classifier.CleanedOne | extract_simplified_schedule.py:198-205 | A single token survives exactly when it is not a teacher word, a location word or a number |
| Classifier.ExtractLessonName | extract_simplified_schedule.py:160-211 | The lesson name is empty exactly when the cell has no non-blank line; a non-empty catalog match for the candidate is what is returned; the name is normal text for a well-formed catalog |
| Classifier.MatchShape | extract_simplified_schedule.py:188-191 | A match from a well-formed catalog is normal text |
| Classifier.BlankCellIsEmpty | extract_simplified_schedule.py:168-173 | An all-whitespace cell gives the empty name |
| Classifier.NoMatchResult | extract_simplified_schedule.py:193-211 | Without a match, the name is the cleaned tokens joined, or the candidate when no token is left |
| Classifier.CatalogNameCell | extract_simplified_schedule.py:185-191 | In a well-formed catalog, a cell whose candidate upper-normalises to a lesson name yields that name's recorded spelling, when only identical texts score 1.0 |
| Classifier.RowLessons | extract_simplified_schedule.py:240-243 | A row yields at most one name per period cell, and none of them blank |
| Classifier.RowLessonsAppend | extract_simplified_schedule.py:241-243 | Cells are handled one by one and in order: two cell lists one after the other give the two name lists one after the other |
| Classifier.RowLessonsOne | extract_simplified_schedule.py:241-243 | A single cell gives its extracted lesson name exactly when that name is not blank |
| Classifier.DayRow | extract_simplified_schedule.py:234-244 | A row is kept exactly when its first cell normalises to a day name; it yields that day and the names `RowLessons` gives for the cells after the first |
| Classifier.MakeSimplifiedSchedule | extract_simplified_schedule.py:226-245 | The schedule has at most one line per grid row, and each names a day |
| Classifier.ScheduleAppend | extract_simplified_schedule.py:234-244 | Rows are handled independently and in order: the schedule of two grids together is the two schedules together |
| Classifier.ScheduleOfRow | extract_simplified_schedule.py:234-244 | A single row gives its day line when its first cell is a day name, otherwise nothing |
| Classifier.WeekendRowsKept | extract_simplified_schedule.py:19 | Saturday and Sunday rows are kept like the other days |
| AppText.EscChar | app.py:75 | Escaping one character gives safe HTML and leaves ordinary characters alone |
| AppText.EscapeEach | app.py:75 | Escaping character by character gives safe HTML |
| AppText.ChainIsEach | app.py:75 | The chain of four replacements, ampersand first, escapes each character on its own |
| AppText.UnescapeEach | app.py:75 | Decoding the four references undoes character-wise escaping |
| AppText.Esc | app.py:74-75 | `esc` output has no `<`, `>` or `"`, every `&` begins a reference, it decodes back to the input, and text without special characters is unchanged |
| AppText.EscInjective | app.py:74-75 | Different texts escape differently |
| AppText.FirstUpper | app.py:53-59 | `_first_upper` is empty exactly for the empty text, is the first character upper-cased followed by the rest lower-cased, and is never shorter than its input |
| AppText.DigitsEnd | app.py:228 | The digit run starting at a position ends at the first non-digit |
| AppText.SearchClass | app.py:228 | The search finds the leftmost class name from a position, or reports that none exists |
| AppText.ParseClassName | app.py:224-229 | `parse_class_name` gives the fallback when no digits-slash-letter class name stands between word boundaries, and the leftmost such name otherwise |
| TeacherSchedules.MergePeriods | app.py:266-270 | A merged day has the target's periods plus the periods the incoming day fills |
| TeacherSchedules.PeriodsSlots | app.py:266-270 | Each merged period lists the target's lessons, then the incoming ones |
| TeacherSchedules.MergeWeek | app.py:264-265 | A merged week has every day of either week, including incoming days whose lists are all empty |
| TeacherSchedules.WeekDays | app.py:264-270 | A day only the target has is unchanged, and an incoming day gains exactly the periods it fills |
| TeacherSchedules.Merge | app.py:259-270 | The merged schedules cover both teacher sets; a new teacher is copied whole, an untouched one is unchanged, and a shared one gets the week merge |
| TeacherSchedules.MergeSlots | app.py:443-454 | Every slot of the merge is the target's lessons followed by the incoming ones: nothing is replaced, reordered or deduplicated |
| TeacherSchedules.MergeCreatesOnlyFilled | app.py:266-270 | A period exists after the merge exactly when the target had it or the incoming day fills it |
| TeacherSchedules.MergePeriodsLoop | app.py:266-270 | The period loop, in any iteration order and skipping empty lists, computes the merged day |
| TeacherSchedules.MergeAll | app.py:435-454 | A teacher appears after merging all files exactly when some file has that teacher |
| TeacherSchedules.MergeAllSlots | app.py:435-454 | After merging all files, each slot lists that slot's lessons of every file, in file order |
| TeacherSchedules.FilledUpTo | app.py:84-86 | At most `n` of the periods 1 to `n` are filled |
| TeacherSchedules.FilledUpToExtremes | app.py:84-86 | The count is 0 exactly when no period is filled, and `n` exactly when all are |
| TeacherSchedules.TotalHours | app.py:343-345 | The total hours are at most 9 per week day |
| TeacherSchedules.CountHours | app.py:81-86 | The preview's nested loops compute the same total as the PDF's sum |
| TeacherSchedules.NoHours | app.py:343-345 | The total is 0 exactly when no slot of a week day in periods 1 to 9 is filled |
| TeacherSchedules.MergeHours | app.py:343-345 | Merging never lowers a teacher's hours and never exceeds the sum of both parts' hours |
| TeacherSchedules.PreviewTeachers | app.py:67-72 | The preview lists teachers strictly ascending, exactly those in the schedules and, with a selection, selected |
| TeacherSchedules.PdfTeachers | app.py:292-302 | The PDF lists teachers ascending, exactly those in the schedules and selected; without a selection each once, with one as often as selected |
| TeacherSchedules.PdfEmpty | app.py:292-302 | The PDF is empty exactly when there are no schedules, or the selection names no teacher |
| TeacherSchedules.SelectionsAgree | app.py:67-70 | Without a selection, or with one naming nobody twice, the PDF and the preview list the same teachers in the same order |
| TeacherSchedules.DuplicateSelection | app.py:298 | A teacher selected twice gets two PDF blocks but one preview card |

## Left out

- File and PDF I/O are not modelled: `pdfplumber` page and table
  extraction, `reportlab` output, fonts, and the Streamlit UI. Tables enter
  the model as lists of rows. A missing (None) cell is the empty text.
- `_similar` (difflib's `SequenceMatcher.ratio`) is a parameter with values
  in [0, 1]. Its internals are floating-point arithmetic on matching
  blocks.
- The 0.60 threshold is the exact rational 3/5. The binary double 0.6 and
  the ratios compared against it are not modelled.
- UpperChar: covers ASCII, Latin-1 and the Turkish letters `ı`, `ğ` and
  `ş`; every other character maps to itself. Python's `str.upper`
  covers all of Unicode (`"ā".upper()` is `"Ā"`). The timetable text is
  Turkish, so the table stops there.
- LowerChar: limited to the same ranges as `UpperChar`, for the same
  reason.
- IsWordChar: the `\w` class behind `\b` is modelled for ASCII letters,
  digits, `_`, Latin-1 letters and digits, and Latin Extended-A. Python's
  `\w` is all Unicode letters and digits, so Greek `Α` before `LAB` would
  block a match in Python but not here. The timetable text is Latin/Turkish.
- IsSpace: the whitespace set is listed by code point, not derived from
  the Unicode database.
- Teacher resolution and `build_teacher_schedules`, which fill the teacher
  schedules from the class grids, are not part of this model. The merge,
  hours and selection take schedules as given.
- The per-page loop of `_process_uploaded_pdf_impl` and the per-file loop
  of the front end are modelled by `MergeAll` as a pure fold. Only the
  innermost period loop has a loop method (`MergePeriodsLoop`).
- Merge: the first page's week for a teacher is stored by reference and
  then extended in place. Nothing else holds that dictionary, so the
  model's value semantics give the same result.
- The class schedules' `dict.update`, the HTML card and table markup,
  `abbreviate_lesson_name`, the short day names, and the PDF table layout
  are not modelled. Only the teacher lists, the hours and the escaping
  that feed them are.
- `extract_week_table` and `write_simple_pdf` are I/O wrappers around the
  modelled functions.

=== FILE: apptext.dfy ===
/** The small string helpers of the web front end: the HTML escaper of the
    schedule preview, `_first_upper`, and `parse_class_name`. */
module AppText {
  import opened Results
  import opened Text
  import opened Casing

  /* ---------------- esc ---------------- */

  predicate StartsWith(s: string, p: string) {
    |p| <= |s| && s[..|p|] == p
  }

  /** One of the four character references `esc` writes begins at `i`. */
  predicate EntityAt(r: string, i: nat)
    requires i <= |r|
  {
    var t := r[i..];
    StartsWith(t, "&amp;") || StartsWith(t, "&lt;") || StartsWith(t, "&gt;") || StartsWith(t, "&quot;")
  }

  /** Safe to place between HTML tags or inside a double-quoted attribute:
      no `<`, `>` or `"`, and every `&` begins a character reference. */
  predicate SafeHtml(r: string) {
    && '<' !in r && '>' !in r && '"' !in r
    && forall i :: 0 <= i < |r| && r[i] == '&' ==> EntityAt(r, i)
  }

  /** The four replacements `esc` chains, ampersand first. */
  function ReplaceChain(s: string): string {
    ReplaceAll(ReplaceAll(ReplaceAll(ReplaceAll(s, '&', "&amp;"), '<', "&lt;"), '>', "&gt;"), '"', "&quot;")
  }

  /** Each of the four references is itself safe: its only `&` is the
      first character, and that begins it. */
  lemma EntitiesSafe()
    ensures SafeHtml("&amp;") && SafeHtml("&lt;") && SafeHtml("&gt;") && SafeHtml("&quot;")
  {
    var amp, lt, gt, quot := "&amp;", "&lt;", "&gt;", "&quot;";
    assert amp[..5] == amp && lt[..4] == lt && gt[..4] == gt && quot[..6] == quot;
    assert amp[1..] == "amp;" && lt[1..] == "lt;" && gt[1..] == "gt;" && quot[1..] == "quot;";
  }

  /** What `esc` writes for one character. */
  function EscChar(c: char): (r: string)
    ensures SafeHtml(r)
    ensures c != '&' && c != '<' && c != '>' && c != '"' ==> r == [c]
  {
    EntitiesSafe();
    if c == '&' then "&amp;"
    else if c == '<' then "&lt;"
    else if c == '>' then "&gt;"
    else if c == '"' then "&quot;"
    else [c]
  }

  /** Escaping character by character: the reference definition `esc` is
      compared with. */
  function EscapeEach(s: string): (r: string)
    ensures SafeHtml(r)
  {
    if s == [] then []
    else
      var h := EscChar(s[0]);
      var t := EscapeEach(s[1..]);
      SafeConcat(h, t);
      h + t
  }

  lemma StartsWithExtend(x: string, y: string, p: string)
    requires StartsWith(x, p)
    ensures StartsWith(x + y, p)
  {
    assert (x + y)[..|p|] == x[..|p|];
  }

  lemma SafeConcat(a: string, b: string)
    requires SafeHtml(a) && SafeHtml(b)
    ensures SafeHtml(a + b)
  {
    var ab := a + b;
    forall i | 0 <= i < |ab| && ab[i] == '&'
      ensures EntityAt(ab, i)
    {
      if i < |a| {
        assert a[i] == '&';
        assert ab[i..] == a[i..] + b;
        var t := a[i..];
        if StartsWith(t, "&amp;") {
          StartsWithExtend(t, b, "&amp;");
        } else if StartsWith(t, "&lt;") {
          StartsWithExtend(t, b, "&lt;");
        } else if StartsWith(t, "&gt;") {
          StartsWithExtend(t, b, "&gt;");
        } else {
          StartsWithExtend(t, b, "&quot;");
        }
      } else {
        assert b[i - |a|] == '&';
        assert ab[i..] == b[i - |a|..];
      }
    }
    assert forall c :: c in ab ==> c in a || c in b;
  }

  lemma ChainConcat(x: string, y: string)
    ensures ReplaceChain(x + y) == ReplaceChain(x) + ReplaceChain(y)
  {
    var a1, b1 := ReplaceAll(x, '&', "&amp;"), ReplaceAll(y, '&', "&amp;");
    ReplaceAllConcat(x, y, '&', "&amp;");
    var a2, b2 := ReplaceAll(a1, '<', "&lt;"), ReplaceAll(b1, '<', "&lt;");
    ReplaceAllConcat(a1, b1, '<', "&lt;");
    var a3, b3 := ReplaceAll(a2, '>', "&gt;"), ReplaceAll(b2, '>', "&gt;");
    ReplaceAllConcat(a2, b2, '>', "&gt;");
    ReplaceAllConcat(a3, b3, '"', "&quot;");
  }

  lemma ChainOfChar(c: char)
    ensures ReplaceChain([c]) == EscChar(c)
  {
    var one := ReplaceAll([c], '&', "&amp;");
    assert one == (if c == '&' then "&amp;" else [c]) + ReplaceAll([], '&', "&amp;");
  }

  /** The chain of replacements escapes each character on its own: `&` is
      replaced first, so no reference written later is escaped again. */
  lemma {:induction false} ChainIsEach(s: string)
    ensures ReplaceChain(s) == EscapeEach(s)
  {
    if s != [] {
      assert s == [s[0]] + s[1..];
      ChainConcat([s[0]], s[1..]);
      ChainOfChar(s[0]);
      ChainIsEach(s[1..]);
    }
  }

  /** Reads the four references back: the decoding `esc` is undone by. */
  function Unescape(r: string): string
    decreases |r|
  {
    if r == [] then []
    else if StartsWith(r, "&amp;") then "&" + Unescape(r[5..])
    else if StartsWith(r, "&lt;") then "<" + Unescape(r[4..])
    else if StartsWith(r, "&gt;") then ">" + Unescape(r[4..])
    else if StartsWith(r, "&quot;") then "\"" + Unescape(r[6..])
    else [r[0]] + Unescape(r[1..])
  }

  /** Texts that differ in their second character do not share a prefix. */
  lemma SecondDiffers(r: string, p: string)
    requires |r| >= 2 && |p| >= 2 && r[1] != p[1]
    ensures !StartsWith(r, p)
  {
    assert |p| <= |r| ==> r[..|p|][1] == r[1];
  }

  lemma UnescapeStep(c: char, rest: string)
    ensures Unescape(EscChar(c) + rest) == [c] + Unescape(rest)
  {
    var e := EscChar(c);
    var r := e + rest;
    if c == '&' || c == '<' || c == '>' || c == '"' {
      StartsWithExtend(e, rest, e);
      assert r[|e|..] == rest;
      assert r[1] == e[1];
      if c != '&' {
        SecondDiffers(r, "&amp;");
      }
      if c == '>' || c == '"' {
        SecondDiffers(r, "&lt;");
      }
      if c == '"' {
        SecondDiffers(r, "&gt;");
      }
    } else {
      assert r[0] == c && r[1..] == rest;
    }
  }

  lemma {:induction false} UnescapeEach(s: string)
    ensures Unescape(EscapeEach(s)) == s
  {
    if s != [] {
      UnescapeEach(s[1..]);
      UnescapeStep(s[0], EscapeEach(s[1..]));
      assert s == [s[0]] + s[1..];
    }
  }

  /** `esc`: the escaped text is safe HTML, decodes back to the input, and
      text without any of the four special characters passes unchanged. */
  function Esc(s: string): (r: string)
    ensures SafeHtml(r)
    ensures Unescape(r) == s
    ensures '&' !in s && '<' !in s && '>' !in s && '"' !in s ==> r == s
  {
    ChainIsEach(s);
    UnescapeEach(s);
    ReplaceChain(s)
  }

  /** Escaping is one-to-one: different texts never escape alike. */
  lemma EscInjective(s: string, t: string)
    requires Esc(s) == Esc(t)
    ensures s == t
  {
  }

  /* ---------------- _first_upper ---------------- */

  lemma {:induction false} UpperGrows(s: string)
    ensures |Upper(s)| >= |s|
  {
    if s != [] {
      UpperGrows(s[1..]);
    }
  }

  lemma {:induction false} LowerGrows(s: string)
    ensures |Lower(s)| >= |s|
  {
    if s != [] {
      LowerGrows(s[1..]);
    }
  }

  /** `_first_upper`: the first character upper-cased and the rest lower-
      cased, a one-character text simply upper-cased. Case mapping can
      lengthen a text but never shortens it. */
  function FirstUpper(s: string): (r: string)
    ensures r == [] <==> s == []
    ensures s != [] ==> r == UpperChar(s[0]) + Lower(s[1..])
    ensures |r| >= |s|
  {
    if s == [] then s
    else if |s| == 1 then
      assert Upper(s) == UpperChar(s[0]) + Upper([]);
      Upper(s)
    else
      assert Upper([s[0]]) == UpperChar(s[0]) + Upper([]);
      LowerGrows(s[1..]);
      Upper([s[0]]) + Lower(s[1..])
  }

  /* ---------------- parse_class_name ---------------- */

  predicate IsAsciiDigit(c: char) {
    '0' <= c <= '9'
  }

  /** The letters `[A-ZÇĞİÖŞÜ]` accepts after the slash. */
  predicate IsClassLetter(c: char) {
    || ('A' <= c <= 'Z')
    || c == '\U{C7}' || c == '\U{11E}' || c == '\U{130}' || c == '\U{D6}' || c == '\U{15E}' || c == '\U{DC}'
  }

  /** The shape of a class name such as `9/A`: digits, a slash, a letter. */
  predicate IsClassName(r: string) {
    && |r| >= 3
    && (forall k :: 0 <= k < |r| - 2 ==> IsAsciiDigit(r[k]))
    && r[|r| - 2] == '/'
    && IsClassLetter(r[|r| - 1])
  }

  /** `\b[0-9]+/[A-ZÇĞİÖŞÜ]\b` matches at `i`, its digits ending at `j`. */
  predicate ClassAt(s: string, i: int, j: int) {
    && 0 <= i < j && j + 2 <= |s|
    && (forall k :: i <= k < j ==> IsAsciiDigit(s[k]))
    && s[j] == '/' && IsClassLetter(s[j + 1])
    && (i == 0 || !IsWordChar(s[i - 1]))
    && (j + 2 == |s| || !IsWordChar(s[j + 2]))
  }

  /** The match `re.search` reports: the one that starts first. */
  ghost predicate LeftmostClassAt(s: string, i: int, j: int) {
    ClassAt(s, i, j) && forall a, b :: 0 <= a < i ==> !ClassAt(s, a, b)
  }

  /** The end of the run of ASCII digits that starts at `i`. */
  function DigitsEnd(s: string, i: nat): (j: nat)
    requires i <= |s|
    ensures i <= j <= |s|
    ensures forall k :: i <= k < j ==> IsAsciiDigit(s[k])
    ensures j < |s| ==> !IsAsciiDigit(s[j])
    decreases |s| - i
  {
    if i < |s| && IsAsciiDigit(s[i]) then DigitsEnd(s, i + 1) else i
  }

  /** A run of digits from `i` that ends before a non-digit is the run
      `DigitsEnd` finds: the greedy `[0-9]+` has only one way to be
      followed by a slash. */
  lemma {:induction false} DigitsEndUnique(s: string, i: nat, j: nat)
    requires i <= j < |s| && !IsAsciiDigit(s[j])
    requires forall k :: i <= k < j ==> IsAsciiDigit(s[k])
    ensures j == DigitsEnd(s, i)
    decreases j - i
  {
    if i < j {
      assert IsAsciiDigit(s[i]);
      DigitsEndUnique(s, i + 1, j);
    }
  }

  /** The left-to-right search from position `i`. */
  function SearchClass(s: string, i: nat): (r: Option<(nat, nat)>)
    requires i <= |s|
    ensures r.None? ==> forall a, b :: i <= a ==> !ClassAt(s, a, b)
    ensures r.Some? ==> i <= r.value.0 && ClassAt(s, r.value.0, r.value.1)
    ensures r.Some? ==> forall a, b :: i <= a < r.value.0 ==> !ClassAt(s, a, b)
    decreases |s| - i
  {
    if i == |s| then None
    else
      var j := DigitsEnd(s, i);
      if ClassAt(s, i, j) then Some((i, j))
      else
        var r := SearchClass(s, i + 1);
        assert forall b :: !ClassAt(s, i, b) by {
          forall b | ClassAt(s, i, b)
            ensures false
          {
            DigitsEndUnique(s, i, b);
          }
        }
        r
  }

  /** `parse_class_name`: the first class name in the page text, or the
      fallback when there is none. */
  function ParseClassName(text: string, fallback: string): (r: string)
    ensures (forall a, b :: !ClassAt(text, a, b)) ==> r == fallback
    ensures (exists a, b :: ClassAt(text, a, b)) ==>
      IsClassName(r) && exists a, b :: LeftmostClassAt(text, a, b) && r == text[a..b + 2]
  {
    match SearchClass(text, 0)
    case None => fallback
    case Some((a, b)) =>
      var r := text[a..b + 2];
      assert LeftmostClassAt(text, a, b);
      assert forall k :: 0 <= k < |r| - 2 ==> r[k] == text[a + k];
      r
  }
}

=== FILE: casing.dfy ===
/** Python's `str.upper()` and `str.lower()` on the letters the timetables
    use. Full Unicode case mapping is a table of thousands of entries; this
    model writes out ASCII, Latin-1 and the Turkish letters and maps every
    other character to itself. Case mapping may change the length of a
    string (`"ß".upper()` is `"SS"`, `"İ".lower()` is `"i̇"`), and nothing
    below assumes it does not. */
module Casing {
  import opened Text

  /** `c.upper()`. */
  function UpperChar(c: char): (r: string)
    ensures r != []
    ensures IsSpace(c) ==> r == [c]
    ensures !IsSpace(c) ==> SpaceFree(r)
  {
    if 'a' <= c <= 'z' then [(c as int - 32) as char]
    else if c == '\U{B5}' then "\U{39C}"
    else if c == '\U{DF}' then "SS"
    else if '\U{E0}' <= c <= '\U{FE}' && c != '\U{F7}' then [(c as int - 32) as char]
    else if c == '\U{FF}' then "\U{178}"
    else if c == '\U{131}' then "I"
    else if c == '\U{11F}' || c == '\U{15F}' then [(c as int - 1) as char]
    else [c]
  }

  /** `c.lower()`. */
  function LowerChar(c: char): (r: string)
    ensures r != []
    ensures IsSpace(c) ==> r == [c]
  {
    if 'A' <= c <= 'Z' then [(c as int + 32) as char]
    else if '\U{C0}' <= c <= '\U{DE}' && c != '\U{D7}' then [(c as int + 32) as char]
    else if c == '\U{130}' then "i\U{307}"
    else if c == '\U{11E}' || c == '\U{15E}' then [(c as int + 1) as char]
    else if c == '\U{178}' then "\U{FF}"
    else [c]
  }

  /** `s.upper()`: the character images, concatenated. */
  function Upper(s: string): (r: string)
    ensures r == [] <==> s == []
  {
    if s == [] then [] else UpperChar(s[0]) + Upper(s[1..])
  }

  /** `s.lower()`. */
  function Lower(s: string): (r: string)
    ensures r == [] <==> s == []
  {
    if s == [] then [] else LowerChar(s[0]) + Lower(s[1..])
  }

  /** `_norm_upper`: normalise, then upper-case. */
  function NormUpper(s: string): (r: string)
    ensures IsNormal(r)
    ensures r == [] <==> AllSpace(s)
  {
    var n := Norm(s);
    NormEmpty(s);
    UpperShape(n);
    Upper(n)
  }

  /** Upper-casing keeps whitespace where it was: the first and last
      characters are whitespace exactly when they were before. */
  lemma {:induction false} UpperEnds(s: string)
    requires s != []
    ensures IsSpace(Upper(s)[0]) <==> IsSpace(s[0])
    ensures IsSpace(Upper(s)[|Upper(s)| - 1]) <==> IsSpace(s[|s| - 1])
  {
    var u := UpperChar(s[0]);
    var t := s[1..];
    assert Upper(s) == u + Upper(t);
    assert Upper(s)[0] == u[0];
    if t == [] {
      assert Upper(s) == u;
    } else {
      UpperEnds(t);
      assert Upper(s)[|Upper(s)| - 1] == Upper(t)[|Upper(t)| - 1];
      assert s[|s| - 1] == t[|t| - 1];
    }
  }

  /** Upper-casing keeps the blank-only, no-double-space and trimmed shapes,
      so the upper-cased form of normal text is normal. */
  lemma {:induction false} UpperShape(s: string)
    ensures BlanksOnly(s) ==> BlanksOnly(Upper(s))
    ensures NoDoubleSpace(s) ==> NoDoubleSpace(Upper(s))
    ensures IsNormal(s) ==> IsNormal(Upper(s))
  {
    if s != [] {
      var u := UpperChar(s[0]);
      var t := s[1..];
      assert Upper(s) == u + Upper(t);
      SliceKeepsShape(s, 1, |s|);
      UpperShape(t);
      UpperEnds(s);
      BlanksOnlyConcat(u, Upper(t));
      if BlanksOnly(s) {
        assert IsSpace(s[0]) ==> s[0] == ' ';
      }
      if NoDoubleSpace(s) {
        assert NoDoubleSpace(u);
        if t != [] {
          UpperEnds(t);
          assert IsSpace(u[|u| - 1]) <==> IsSpace(s[0]);
          assert !(IsSpace(s[0]) && IsSpace(t[0]));
        }
        NoDoubleSpaceConcat(u, Upper(t));
      }
    }
  }
}

=== FILE: catalog.dfy ===
/** The lesson catalog read from the bottom table of a timetable page, and the
    fuzzy lookup of a noisy cell text against it. */
module Catalog {
  import opened Results
  import opened Text
  import opened Casing
  import opened Sorting

  /** A similarity ratio, as `difflib.SequenceMatcher.ratio()` returns it. */
  type Score = r: real | 0.0 <= r <= 1.0 witness 0.0

  /** The string-similarity function `_similar`; its internals are not
      modelled, only its range. */
  type Similarity = (string, string) -> Score

  /** A row of an extracted table; a missing (None) cell is the empty text. */
  type Row = seq<string>

  /** An extracted table: its first row is the header. */
  type Table = seq<Row>

  /** `LessonCatalog`: the upper-normalised lesson names in ascending order,
      each one's first original spelling, and the word sets of the teacher
      and location columns. */
  datatype LessonCatalog = LessonCatalog(
    lessonNames: seq<string>,
    rawByNorm: map<string, string>,
    teacherWords: set<string>,
    locationWords: set<string>)

  /** The minimum score a fuzzy match must reach. */
  const MatchThreshold: real := 0.6

  /** The `raw_by_norm.get(name, name)` lookup. */
  function RawOf(cat: LessonCatalog, name: string): string {
    if name in cat.rawByNorm then cat.rawByNorm[name] else name
  }

  /** `i` is the position the best-match loop settles on: its score is
      positive, no name scores higher, and every earlier name scores lower. */
  ghost predicate FirstBest(cand: string, names: seq<string>, sim: Similarity, i: int) {
    && 0 <= i < |names|
    && sim(cand, names[i]) > 0.0
    && (forall j :: 0 <= j < |names| ==> sim(cand, names[j]) <= sim(cand, names[i]))
    && (forall j :: 0 <= j < i ==> sim(cand, names[j]) < sim(cand, names[i]))
  }

  /** The state of the best-match loop: no name yet, or the chosen index
      and its score. */
  datatype Leader = NoLeader | Leader(index: nat, score: real)

  /** The best-match loop run over `names`: a name replaces the current
      best only when it scores strictly higher, starting from 0.0. */
  function Lead(cand: string, names: seq<string>, sim: Similarity): (l: Leader)
    ensures l.NoLeader? ==> forall j :: 0 <= j < |names| ==> sim(cand, names[j]) == 0.0
    ensures l.Leader? ==> l.index < |names| && l.score == sim(cand, names[l.index])
    ensures l.Leader? ==> FirstBest(cand, names, sim, l.index)
  {
    if names == [] then NoLeader
    else
      var n := |names| - 1;
      var init := names[..n];
      var prev := Lead(cand, init, sim);
      assert forall j :: 0 <= j < n ==> names[j] == init[j];
      var s := sim(cand, names[n]);
      var best := if prev.Leader? then prev.score else 0.0;
      if s > best then Leader(n, s) else prev
  }

  /** The first best position is unique. */
  lemma FirstBestUnique(cand: string, names: seq<string>, sim: Similarity, i: int, k: int)
    requires FirstBest(cand, names, sim, i) && FirstBest(cand, names, sim, k)
    ensures i == k
  {
  }

  /** The loop settles on a position exactly when that position is the
      first best one. */
  lemma LeadFindsFirstBest(cand: string, names: seq<string>, sim: Similarity, i: int)
    ensures FirstBest(cand, names, sim, i) <==> Lead(cand, names, sim).Leader? && Lead(cand, names, sim).index == i
  {
    var l := Lead(cand, names, sim);
    if FirstBest(cand, names, sim, i) && l.Leader? {
      FirstBestUnique(cand, names, sim, i, l.index);
    }
  }

  /** The position accepted as the match: the first best one, naming a
      non-empty lesson and scoring at least `threshold`. */
  ghost predicate Accepts(cat: LessonCatalog, sim: Similarity, cand: string, threshold: real, i: int) {
    && FirstBest(cand, cat.lessonNames, sim, i)
    && cat.lessonNames[i] != []
    && sim(cand, cat.lessonNames[i]) >= threshold
  }

  /** `best_lesson_match` with its threshold as a parameter. */
  function MatchWith(cat: LessonCatalog, sim: Similarity, candidate: string, threshold: real): (r: Option<string>)
    ensures NormUpper(candidate) == [] ==> r.None?
    ensures r.Some? <==> NormUpper(candidate) != [] && exists i :: Accepts(cat, sim, NormUpper(candidate), threshold, i)
    ensures forall i :: NormUpper(candidate) != [] && Accepts(cat, sim, NormUpper(candidate), threshold, i) ==>
      r == Some(RawOf(cat, cat.lessonNames[i]))
  {
    var cand := NormUpper(candidate);
    if cand == [] then None
    else
      var l := Lead(cand, cat.lessonNames, sim);
      assert forall i :: Accepts(cat, sim, cand, threshold, i) ==> l.Leader? && l.index == i by {
        forall i | Accepts(cat, sim, cand, threshold, i)
          ensures l.Leader? && l.index == i
        {
          LeadFindsFirstBest(cand, cat.lessonNames, sim, i);
        }
      }
      if l.Leader? && cat.lessonNames[l.index] != [] && l.score >= threshold then
        assert Accepts(cat, sim, cand, threshold, l.index);
        Some(RawOf(cat, cat.lessonNames[l.index]))
      else
        None
  }

  /** `LessonCatalog.best_lesson_match`: the original spelling of the
      best-scoring lesson when its score reaches 0.60, and None otherwise. */
  function BestLessonMatch(cat: LessonCatalog, sim: Similarity, candidate: string): (r: Option<string>)
    ensures r.Some? <==> NormUpper(candidate) != [] && exists i :: Accepts(cat, sim, NormUpper(candidate), MatchThreshold, i)
    ensures forall i :: NormUpper(candidate) != [] && Accepts(cat, sim, NormUpper(candidate), MatchThreshold, i) ==>
      r == Some(RawOf(cat, cat.lessonNames[i]))
  {
    MatchWith(cat, sim, candidate, MatchThreshold)
  }

  /** Lowering the threshold keeps every match and changes none. */
  lemma ThresholdMonotone(cat: LessonCatalog, sim: Similarity, candidate: string, low: real, high: real)
    requires low <= high
    requires MatchWith(cat, sim, candidate, high).Some?
    ensures MatchWith(cat, sim, candidate, low) == MatchWith(cat, sim, candidate, high)
  {
    var cand := NormUpper(candidate);
    var i :| Accepts(cat, sim, cand, high, i);
    assert Accepts(cat, sim, cand, low, i);
  }

  /** Identical texts, and only they, have ratio 1.0 — as for difflib. */
  ghost predicate ExactOnlyAtOne(sim: Similarity) {
    && (forall a: string :: sim(a, a) == 1.0)
    && (forall a: string, b: string :: a != b ==> sim(a, b) < 1.0)
  }

  /** A candidate that normalises to a catalog name finds that name. */
  lemma ExactNameMatches(cat: LessonCatalog, sim: Similarity, candidate: string)
    requires ExactOnlyAtOne(sim)
    requires StrictlySorted(cat.lessonNames)
    requires NormUpper(candidate) != [] && NormUpper(candidate) in cat.lessonNames
    ensures BestLessonMatch(cat, sim, candidate) == Some(RawOf(cat, NormUpper(candidate)))
  {
    var cand := NormUpper(candidate);
    var names := cat.lessonNames;
    var k :| 0 <= k < |names| && names[k] == cand;
    assert sim(cand, names[k]) == 1.0;
    forall j | 0 <= j < k
      ensures sim(cand, names[j]) < 1.0
    {
      LessIrreflexive(names[j]);
      assert names[j] != cand;
    }
    assert Accepts(cat, sim, cand, MatchThreshold, k);
  }

  /** The header titles of the lesson, teacher and location columns. */
  const LessonTitle: string := "Dersin Ad\U{131}"
  const TeacherTitle: string := "Dersin \U{D6}\U{11F}retmeni"
  const LocationTitle: string := "Yer"

  /** Location words every catalog knows, whatever the table says. */
  const SeedLocations: set<string> := {"LAB", "SINIF", "DERSL\U{130}K", "AT\U{D6}LYE"}

  /** Every cell of a row normalised, a missing cell read as empty text. */
  function NormRow(row: Row): (r: Row)
    ensures |r| == |row|
    ensures forall i :: 0 <= i < |r| ==> IsNormal(r[i])
  {
    seq(|row|, i requires 0 <= i < |row| => Norm(row[i]))
  }

  /** The column titled `title` in a normalised header: the last such
      column, as a dict built from the header keeps the last index of a
      repeated key; empty titles are never keys. */
  function ColumnOf(header: Row, title: string): (r: Option<nat>)
    ensures r.Some? ==> r.value < |header| && title != [] && header[r.value] == title
    ensures r.Some? ==> forall j :: r.value < j < |header| ==> header[j] != title
    ensures r.None? ==> title == [] || title !in header
  {
    if header == [] || title == [] then None
    else
      var n := |header| - 1;
      if header[n] == title then Some(n)
      else
        assert header == header[..n] + [header[n]];
        ColumnOf(header[..n], title)
  }

  /** The three columns the catalog reads, each possibly absent. */
  datatype Columns = Columns(lesson: Option<nat>, teacher: Option<nat>, location: Option<nat>)

  function HeaderColumns(header: Row): Columns {
    var titles := NormRow(header);
    Columns(ColumnOf(titles, LessonTitle), ColumnOf(titles, TeacherTitle), ColumnOf(titles, LocationTitle))
  }

  /** The cell of `row` in column `col`, when the column exists and the row
      is long enough to have it. An empty row has no cell, which covers the
      loop's skipping of empty rows. */
  function CellAt(row: Row, col: Option<nat>): (r: Option<string>)
    ensures r.Some? <==> col.Some? && col.value < |row|
    ensures r.Some? ==> r.value == row[col.value]
  {
    if col.Some? && col.value < |row| then Some(row[col.value]) else None
  }

  /** What a data row contributes to the lesson part of the catalog: the
      upper-normalised key and the normalised text of its lesson cell, both
      "" when the row has no such cell. */
  datatype Entry = Entry(key: string, text: string)

  /** The shape every entry has: normal texts, a non-empty key only with a
      non-empty text. */
  ghost predicate ProperEntry(e: Entry) {
    IsNormal(e.key) && IsNormal(e.text) && (e.key != [] ==> e.text != [])
  }

  function LessonEntry(row: Row, col: Option<nat>): (e: Entry)
    ensures ProperEntry(e)
  {
    match CellAt(row, col)
    case None => Entry("", "")
    case Some(cell) =>
      var text := Norm(cell);
      Entry(NormUpper(text), text)
  }

  function LessonEntries(rows: seq<Row>, col: Option<nat>): (es: seq<Entry>)
    ensures |es| == |rows|
    ensures forall i :: 0 <= i < |rows| ==> es[i] == LessonEntry(rows[i], col) && ProperEntry(es[i])
  {
    seq(|rows|, i requires 0 <= i < |rows| => LessonEntry(rows[i], col))
  }

  /** The tokens of `s` of at least two characters. */
  function Tokens(s: string): (r: set<string>)
    ensures forall w :: w in r <==> w in SplitWords(s) && |w| >= 2
    ensures forall w :: w in r ==> |w| >= 2 && SpaceFree(w)
  {
    set w | w in SplitWords(s) && |w| >= 2
  }

  /** A character absent from `s` is absent from its tokens. */
  lemma TokensAvoid(s: string, c: char)
    requires c !in s
    ensures forall w :: w in Tokens(s) ==> c !in w
  {
    SplitWordsAvoid(s, c);
  }

  /** The teacher words of a cell: the tokens of at least two characters
      once commas count as spaces. Every such token of the upper-normalised
      cell that has no comma is one of them. */
  function TeacherTokens(cell: string): (r: set<string>)
    ensures forall w :: w in r <==> |w| >= 2 && w in SplitWords(ReplaceAll(NormUpper(cell), ',', " "))
    ensures forall w :: w in SplitWords(NormUpper(cell)) && |w| >= 2 && ',' !in w ==> w in r
    ensures forall w :: w in r ==> |w| >= 2 && SpaceFree(w) && ',' !in w
  {
    var t := ReplaceAll(NormUpper(cell), ',', " ");
    TokensAvoid(t, ',');
    forall w | w in SplitWords(NormUpper(cell)) && ',' !in w
      ensures w in SplitWords(t)
    {
      SplitReplaceKeeps(NormUpper(cell), ',', w);
    }
    Tokens(t)
  }

  /** The location words of a cell: its upper-normalised tokens of at least
      two characters. */
  function LocationTokens(cell: string): (r: set<string>)
    ensures forall w :: w in r <==> w in SplitWords(NormUpper(cell)) && |w| >= 2
    ensures forall w :: w in r ==> |w| >= 2 && SpaceFree(w)
  {
    Tokens(NormUpper(cell))
  }

  /** The lesson part of the row loop: the keys seen and the first spelling
      of each. */
  datatype Lessons = Lessons(norms: set<string>, raw: map<string, string>)

  /** The lesson set is the key set of the spelling map; the empty key is
      never added. */
  ghost predicate LessonsTidy(ls: Lessons) {
    ls.raw.Keys == ls.norms && [] !in ls.norms
  }

  /** The row loop's lesson updates over the entries of the data rows, in
      order: a key is added to the set, and to the map only if it is not
      there yet. */
  function GatherLessons(es: seq<Entry>): (ls: Lessons)
    ensures LessonsTidy(ls)
  {
    if es == [] then Lessons({}, map[])
    else
      var n := |es| - 1;
      var prev := GatherLessons(es[..n]);
      var e := es[n];
      if e.key == [] then prev
      else if e.key in prev.raw then
        assert prev.norms + {e.key} == prev.norms;
        prev
      else
        var raw := prev.raw[e.key := e.text];
        assert raw.Keys == prev.raw.Keys + {e.key};
        Lessons(prev.norms + {e.key}, raw)
  }

  /** Gathered keys and spellings are normal text, the spellings non-empty. */
  lemma {:induction false} GatherShape(es: seq<Entry>)
    requires forall i :: 0 <= i < |es| ==> ProperEntry(es[i])
    ensures forall k :: k in GatherLessons(es).raw ==>
      IsNormal(k) && GatherLessons(es).raw[k] != [] && IsNormal(GatherLessons(es).raw[k])
  {
    if es != [] {
      var n := |es| - 1;
      GatherShape(es[..n]);
      assert ProperEntry(es[n]);
    }
  }

  /** The words one data row adds for a column: none when the row has no
      such cell, else the cell's teacher or location tokens. */
  function RowWords(row: Row, col: Option<nat>, teachers: bool): set<string> {
    match CellAt(row, col)
    case None => {}
    case Some(cell) => if teachers then TeacherTokens(cell) else LocationTokens(cell)
  }

  /** The row loop's word updates for one column over the data rows. */
  function GatherWords(rows: seq<Row>, col: Option<nat>, teachers: bool): (ws: set<string>)
    ensures forall w :: w in ws ==> |w| >= 2 && SpaceFree(w)
    ensures teachers ==> forall w :: w in ws ==> ',' !in w
  {
    if rows == [] then {}
    else GatherWords(rows[..|rows| - 1], col, teachers) + RowWords(rows[|rows| - 1], col, teachers)
  }

  /** A word is gathered exactly when some data row adds it. */
  lemma {:induction false} GatherWordsHas(rows: seq<Row>, col: Option<nat>, teachers: bool, w: string)
    ensures w in GatherWords(rows, col, teachers) <==>
      exists j :: 0 <= j < |rows| && w in RowWords(rows[j], col, teachers)
  {
    if rows != [] {
      var n := |rows| - 1;
      var init := rows[..n];
      var earlier := GatherWords(init, col, teachers);
      var last := RowWords(rows[n], col, teachers);
      assert GatherWords(rows, col, teachers) == earlier + last;
      GatherWordsHas(init, col, teachers, w);
      if w in earlier {
        var j :| 0 <= j < n && w in RowWords(init[j], col, teachers);
        assert rows[j] == init[j];
        assert w in RowWords(rows[j], col, teachers);
      } else if w in last {
        assert w in RowWords(rows[n], col, teachers);
      }
      if exists j :: 0 <= j < |rows| && w in RowWords(rows[j], col, teachers) {
        var j :| 0 <= j < |rows| && w in RowWords(rows[j], col, teachers);
        if j < n {
          assert init[j] == rows[j];
          assert w in earlier;
        } else {
          assert j == n;
          assert w in last;
        }
      }
    }
  }

  /** The gathered words are exactly the words the data rows add. */
  lemma GatheredWords(rows: seq<Row>, col: Option<nat>, teachers: bool)
    ensures forall w :: w in GatherWords(rows, col, teachers) <==>
      exists j :: 0 <= j < |rows| && w in RowWords(rows[j], col, teachers)
  {
    forall w {
      GatherWordsHas(rows, col, teachers, w);
    }
  }

  /** The lesson keys gathered are exactly the non-empty keys of the entries. */
  lemma {:induction false} GatherKeys(es: seq<Entry>, k: string)
    ensures k in GatherLessons(es).norms <==> k != [] && exists j :: 0 <= j < |es| && es[j].key == k
  {
    if es != [] {
      var n := |es| - 1;
      var init := es[..n];
      GatherKeys(init, k);
      if k != [] && exists j :: 0 <= j < |es| && es[j].key == k {
        var j :| 0 <= j < |es| && es[j].key == k;
        if j < n {
          assert init[j] == es[j];
        }
      }
    }
  }

  /** One more entry leaves the spelling of a key already present alone. */
  lemma GatherKeepsSpelling(es: seq<Entry>, k: string)
    requires es != [] && k in GatherLessons(es[..|es| - 1]).raw
    ensures k in GatherLessons(es).raw
    ensures GatherLessons(es).raw[k] == GatherLessons(es[..|es| - 1]).raw[k]
  {
  }

  /** A new key takes the spelling of the entry that brings it. */
  lemma GatherAddsSpelling(es: seq<Entry>)
    requires es != [] && es[|es| - 1].key != []
    requires es[|es| - 1].key !in GatherLessons(es[..|es| - 1]).raw
    ensures es[|es| - 1].key in GatherLessons(es).raw
    ensures GatherLessons(es).raw[es[|es| - 1].key] == es[|es| - 1].text
  {
  }

  /** A key keeps the text of the first entry that has it. */
  lemma {:induction false} GatherFirstSpelling(es: seq<Entry>, j: nat)
    requires j < |es| && es[j].key != []
    requires forall i :: 0 <= i < j ==> es[i].key != es[j].key
    ensures es[j].key in GatherLessons(es).raw
    ensures GatherLessons(es).raw[es[j].key] == es[j].text
  {
    var n := |es| - 1;
    var init := es[..n];
    var k := es[j].key;
    if j < n {
      assert init[j] == es[j];
      forall i | 0 <= i < j
        ensures init[i].key != init[j].key
      {
        assert init[i] == es[i];
      }
      GatherFirstSpelling(init, j);
      GatherKeepsSpelling(es, k);
    } else {
      GatherKeys(init, k);
      forall i | 0 <= i < n
        ensures init[i].key != k
      {
        assert init[i] == es[i];
      }
      GatherAddsSpelling(es);
    }
  }

  /** Why a catalog could not be built: no table on the page, or a last
      table without data rows. `extract_catalog_from_bottom_table` builds an
      empty `LessonCatalog` on both paths but omits the mandatory
      `raw_by_norm` field, so each path raises a TypeError. */
  datatype CatalogError = NoTables | NoDataRows

  /** The catalog assembled from the data rows once the columns are known:
      the lesson keys sorted, their first spellings, the teacher words, and
      the location words with the seed words added. */
  function Assemble(rows: seq<Row>, cols: Columns): (cat: LessonCatalog)
    ensures SeedLocations <= cat.locationWords
    ensures StrictlySorted(cat.lessonNames)
    ensures forall k :: k in cat.rawByNorm <==> k in cat.lessonNames
    ensures forall w :: w in cat.teacherWords <==>
      exists j :: 0 <= j < |rows| && w in RowWords(rows[j], cols.teacher, true)
    ensures forall w :: w in cat.locationWords <==>
      w in SeedLocations || exists j :: 0 <= j < |rows| && w in RowWords(rows[j], cols.location, false)
  {
    GatheredWords(rows, cols.teacher, true);
    GatheredWords(rows, cols.location, false);
    var lessons := GatherLessons(LessonEntries(rows, cols.lesson));
    LessonCatalog(
      SortSet(lessons.norms),
      lessons.raw,
      GatherWords(rows, cols.teacher, true),
      GatherWords(rows, cols.location, false) + SeedLocations)
  }

  /** The entry a data row of `table` contributes to the lesson list. */
  function DataEntry(table: Table, j: nat): Entry
    requires 1 <= j < |table|
  {
    LessonEntry(table[j], HeaderColumns(table[0]).lesson)
  }

  /** Data row `j` is the first to carry its non-empty lesson key. */
  predicate FirstKeyRow(table: Table, j: nat) {
    && 1 <= j < |table| && DataEntry(table, j).key != []
    && forall i :: 1 <= i < j ==> DataEntry(table, i).key != DataEntry(table, j).key
  }

  /** `extract_catalog_from_bottom_table` from the chosen table on: the
      header row locates the columns, the other rows are data. A built
      catalog is well formed, names exactly the non-empty lesson keys of the
      data rows, spells each name as the first row with that key, and holds
      exactly the words the data rows' teacher and location cells add, plus
      the seed location words. */
  function BuildCatalog(table: Table): (r: Result<LessonCatalog, CatalogError>)
    ensures r.Err? <==> |table| < 2
    ensures r.Err? ==> r.error == NoDataRows
    ensures r.Ok? ==> r.value == Assemble(table[1..], HeaderColumns(table[0]))
    ensures r.Ok? ==> WellFormed(r.value)
    ensures r.Ok? ==> forall k :: k in r.value.lessonNames <==>
      k != [] && exists j :: 1 <= j < |table| && DataEntry(table, j).key == k
    ensures r.Ok? ==> forall j :: FirstKeyRow(table, j) ==>
      DataEntry(table, j).key in r.value.rawByNorm && r.value.rawByNorm[DataEntry(table, j).key] == DataEntry(table, j).text
    ensures r.Ok? ==> forall w :: w in r.value.teacherWords <==>
      exists j :: 1 <= j < |table| && w in RowWords(table[j], HeaderColumns(table[0]).teacher, true)
    ensures r.Ok? ==> forall w :: w in r.value.locationWords <==>
      w in SeedLocations || exists j :: 1 <= j < |table| && w in RowWords(table[j], HeaderColumns(table[0]).location, false)
  {
    if |table| < 2 then Err(NoDataRows)
    else
      AssembledIsWellFormed(table[1..], HeaderColumns(table[0]));
      BuiltNames(table);
      BuiltSpellings(table);
      BuiltTeacherWords(table);
      BuiltLocationWords(table);
      Ok(Assemble(table[1..], HeaderColumns(table[0])))
  }

  lemma BuiltName(table: Table, k: string)
    requires |table| >= 2
    ensures k in Assemble(table[1..], HeaderColumns(table[0])).lessonNames <==>
      k != [] && exists j :: 1 <= j < |table| && DataEntry(table, j).key == k
  {
    var rows, cols := table[1..], HeaderColumns(table[0]);
    AssembledNames(rows, cols, k);
    if k in Assemble(rows, cols).lessonNames {
      var j :| 0 <= j < |rows| && LessonEntry(rows[j], cols.lesson).key == k;
      assert DataEntry(table, j + 1).key == k;
    }
    if k != [] && exists j :: 1 <= j < |table| && DataEntry(table, j).key == k {
      var j :| 1 <= j < |table| && DataEntry(table, j).key == k;
      assert LessonEntry(rows[j - 1], cols.lesson).key == k;
    }
  }

  lemma BuiltNames(table: Table)
    requires |table| >= 2
    ensures forall k :: k in Assemble(table[1..], HeaderColumns(table[0])).lessonNames <==>
      k != [] && exists j :: 1 <= j < |table| && DataEntry(table, j).key == k
  {
    forall k {
      BuiltName(table, k);
    }
  }

  /** A data row adds a word exactly when the same row of the whole table,
      counted past the header, does. */
  lemma BuiltWord(table: Table, col: Option<nat>, teachers: bool, w: string)
    requires |table| >= 2
    ensures (exists j :: 0 <= j < |table[1..]| && w in RowWords(table[1..][j], col, teachers)) <==>
      exists j :: 1 <= j < |table| && w in RowWords(table[j], col, teachers)
  {
    var rows := table[1..];
    if exists j :: 0 <= j < |rows| && w in RowWords(rows[j], col, teachers) {
      var j :| 0 <= j < |rows| && w in RowWords(rows[j], col, teachers);
      assert table[j + 1] == rows[j];
    }
    if exists j :: 1 <= j < |table| && w in RowWords(table[j], col, teachers) {
      var j :| 1 <= j < |table| && w in RowWords(table[j], col, teachers);
      assert rows[j - 1] == table[j];
    }
  }

  /** The teacher words of a built catalog, over the rows of the whole table. */
  lemma BuiltTeacherWords(table: Table)
    requires |table| >= 2
    ensures var cols := HeaderColumns(table[0]);
      forall w :: w in Assemble(table[1..], cols).teacherWords <==>
        exists j :: 1 <= j < |table| && w in RowWords(table[j], cols.teacher, true)
  {
    var cols := HeaderColumns(table[0]);
    var cat := Assemble(table[1..], cols);
    forall w
      ensures w in cat.teacherWords <==> exists j :: 1 <= j < |table| && w in RowWords(table[j], cols.teacher, true)
    {
      BuiltWord(table, cols.teacher, true, w);
    }
  }

  /** The location words of a built catalog, over the rows of the whole table. */
  lemma BuiltLocationWords(table: Table)
    requires |table| >= 2
    ensures var cols := HeaderColumns(table[0]);
      forall w :: w in Assemble(table[1..], cols).locationWords <==>
        w in SeedLocations || exists j :: 1 <= j < |table| && w in RowWords(table[j], cols.location, false)
  {
    var cols := HeaderColumns(table[0]);
    var cat := Assemble(table[1..], cols);
    forall w
      ensures w in cat.locationWords <==>
        w in SeedLocations || exists j :: 1 <= j < |table| && w in RowWords(table[j], cols.location, false)
    {
      BuiltWord(table, cols.location, false, w);
    }
  }

  lemma BuiltSpelling(table: Table, j: nat)
    requires FirstKeyRow(table, j)
    ensures var cat := Assemble(table[1..], HeaderColumns(table[0]));
      DataEntry(table, j).key in cat.rawByNorm && cat.rawByNorm[DataEntry(table, j).key] == DataEntry(table, j).text
  {
    var rows, cols := table[1..], HeaderColumns(table[0]);
    forall i | 0 <= i < j - 1
      ensures LessonEntry(rows[i], cols.lesson).key != LessonEntry(rows[j - 1], cols.lesson).key
    {
      assert DataEntry(table, i + 1).key != DataEntry(table, j).key;
    }
    AssembledSpelling(rows, cols, j - 1);
  }

  lemma BuiltSpellings(table: Table)
    requires |table| >= 2
    ensures var cat := Assemble(table[1..], HeaderColumns(table[0]));
      forall j :: FirstKeyRow(table, j) ==>
        DataEntry(table, j).key in cat.rawByNorm && cat.rawByNorm[DataEntry(table, j).key] == DataEntry(table, j).text
  {
    forall j | FirstKeyRow(table, j) {
      BuiltSpelling(table, j);
    }
  }

  /** The catalog of a page: built from its last table. */
  function CatalogFromTables(tables: seq<Table>): (r: Result<LessonCatalog, CatalogError>)
    ensures tables == [] ==> r == Err(NoTables)
    ensures tables != [] ==> r == BuildCatalog(tables[|tables| - 1])
  {
    if tables == [] then Err(NoTables) else BuildCatalog(tables[|tables| - 1])
  }

  /** A catalog as a built one is: names ascending and the keys of
      `rawByNorm`, names and spellings non-empty normal text, and word sets
      of tokens. */
  ghost predicate WellFormed(cat: LessonCatalog) {
    && StrictlySorted(cat.lessonNames)
    && (forall k :: k in cat.rawByNorm <==> k in cat.lessonNames)
    && (forall k :: k in cat.rawByNorm ==> k != [] && IsNormal(k) && cat.rawByNorm[k] != [] && IsNormal(cat.rawByNorm[k]))
    && (forall w :: w in cat.teacherWords ==> |w| >= 2 && SpaceFree(w) && ',' !in w)
    && (forall w :: w in cat.locationWords ==> |w| >= 2 && SpaceFree(w))
  }

  lemma SeedsAreTokens()
    ensures forall w :: w in SeedLocations ==> |w| >= 2 && SpaceFree(w)
  {
    assert SpaceFree("LAB") && SpaceFree("SINIF");
    assert SpaceFree("DERSL\U{130}K") && SpaceFree("AT\U{D6}LYE");
  }

  lemma AssembledIsWellFormed(rows: seq<Row>, cols: Columns)
    ensures WellFormed(Assemble(rows, cols))
  {
    GatherShape(LessonEntries(rows, cols.lesson));
    SeedsAreTokens();
  }

  /** The lesson names are exactly the non-empty lesson keys of the rows. */
  lemma AssembledNames(rows: seq<Row>, cols: Columns, k: string)
    ensures k in Assemble(rows, cols).lessonNames <==>
      k != [] && exists j :: 0 <= j < |rows| && LessonEntry(rows[j], cols.lesson).key == k
  {
    var es := LessonEntries(rows, cols.lesson);
    GatherKeys(es, k);
    if k in Assemble(rows, cols).lessonNames {
      var j :| 0 <= j < |es| && es[j].key == k;
      assert LessonEntry(rows[j], cols.lesson).key == k;
    }
    if k != [] && exists j :: 0 <= j < |rows| && LessonEntry(rows[j], cols.lesson).key == k {
      var j :| 0 <= j < |rows| && LessonEntry(rows[j], cols.lesson).key == k;
      assert es[j].key == k;
    }
  }

  /** A lesson name is spelled as in the first row with that key. */
  lemma AssembledSpelling(rows: seq<Row>, cols: Columns, j: nat)
    requires j < |rows| && LessonEntry(rows[j], cols.lesson).key != []
    requires forall i :: 0 <= i < j ==> LessonEntry(rows[i], cols.lesson).key != LessonEntry(rows[j], cols.lesson).key
    ensures LessonEntry(rows[j], cols.lesson).key in Assemble(rows, cols).rawByNorm
    ensures Assemble(rows, cols).rawByNorm[LessonEntry(rows[j], cols.lesson).key] == LessonEntry(rows[j], cols.lesson).text
  {
    var es := LessonEntries(rows, cols.lesson);
    assert forall i :: 0 <= i < j ==> es[i].key != es[j].key;
    GatherFirstSpelling(es, j);
  }

  /** In a well-formed catalog a match is one of the catalog's spellings. */
  lemma MatchIsSpelling(cat: LessonCatalog, sim: Similarity, candidate: string)
    requires WellFormed(cat)
    requires BestLessonMatch(cat, sim, candidate).Some?
    ensures BestLessonMatch(cat, sim, candidate).value in cat.rawByNorm.Values
  {
    var cand := NormUpper(candidate);
    var i :| Accepts(cat, sim, cand, MatchThreshold, i);
    assert cat.lessonNames[i] in cat.rawByNorm;
  }
}

=== FILE: classifier.dfy ===
/** Turning a messy timetable cell into a lesson name: the teacher-line and
    location-line heuristics, the scan over the cell's lines, the catalog
    match and the token clean-up; and the week grid reduced to one list of
    lesson names per day. */
module Classifier {
  import opened Results
  import opened Text
  import opened Casing
  import opened Catalog

  /** `w` occurs in `s` at `i` with a word boundary on each side, which is
      what `\bw\b` requires of a word `w` made of word characters. */
  predicate WordAt(s: string, w: string, i: int) {
    && 0 <= i && i + |w| <= |s|
    && s[i..i + |w|] == w
    && (i == 0 || !IsWordChar(s[i - 1]))
    && (i + |w| == |s| || !IsWordChar(s[i + |w|]))
  }

  /** The left-to-right search `re.search(r"\bw\b", s)` from position `from`. */
  function FindWord(s: string, w: string, from: nat): (r: bool)
    ensures r <==> exists i :: from <= i && WordAt(s, w, i)
    decreases |s| - from
  {
    if from + |w| > |s| then false
    else if WordAt(s, w, from) then true
    else FindWord(s, w, from + 1)
  }

  /** `re.search(r"\bLAB\b", up)`. */
  predicate MentionsLab(up: string) {
    FindWord(up, "LAB", 0)
  }

  /** The tokens of a line after upper-normalisation. */
  function LineWords(line: string): (ws: seq<string>)
    ensures ProperWords(ws)
    ensures ws == [] <==> NormUpper(line) == []
  {
    var up := NormUpper(line);
    SplitWordsEmpty(up);
    SplitWords(up)
  }

  /** `_is_probably_teacher_line`: every token is a known teacher word and
      there are at most four of them. */
  predicate IsTeacherLine(line: string, cat: LessonCatalog) {
    var up := NormUpper(line);
    if up == [] then false
    else
      var words := SplitWords(up);
      if words == [] then false
      else CountIn(words, cat.teacherWords) == |words| && |words| <= 4
  }

  lemma TeacherLineMeans(line: string, cat: LessonCatalog)
    ensures IsTeacherLine(line, cat) <==>
      && NormUpper(line) != []
      && |LineWords(line)| <= 4
      && forall i :: 0 <= i < |LineWords(line)| ==> LineWords(line)[i] in cat.teacherWords
  {
  }

  function Max(a: int, b: int): int {
    if a < b then b else a
  }

  /** `_is_probably_location_line`: the word LAB, or at most six tokens all
      but at most one of which are known location words (and at least one
      is). */
  predicate IsLocationLine(line: string, cat: LessonCatalog) {
    var up := NormUpper(line);
    if up == [] then false
    else if MentionsLab(up) then true
    else
      var words := SplitWords(up);
      if words == [] then false
      else CountIn(words, cat.locationWords) >= Max(1, |words| - 1) && |words| <= 6
  }

  lemma LabMakesLocation(line: string, cat: LessonCatalog)
    requires exists i :: WordAt(NormUpper(line), "LAB", i)
    ensures IsLocationLine(line, cat)
  {
    var up := NormUpper(line);
    var i :| WordAt(up, "LAB", i);
    assert up[i..i + 3] == "LAB";
    assert up != [];
  }

  /** Without LAB, a location line has one to six tokens, a known one
      among them, and no two unknown ones. */
  lemma LocationLineWithoutLab(line: string, cat: LessonCatalog)
    requires !exists i :: WordAt(NormUpper(line), "LAB", i)
    requires IsLocationLine(line, cat)
    ensures 1 <= |LineWords(line)| <= 6
    ensures exists i :: 0 <= i < |LineWords(line)| && LineWords(line)[i] in cat.locationWords
    ensures forall i, j :: 0 <= i < j < |LineWords(line)| ==>
      LineWords(line)[i] in cat.locationWords || LineWords(line)[j] in cat.locationWords
  {
    var ws := LineWords(line);
    forall i, j | 0 <= i < j < |ws|
      ensures ws[i] in cat.locationWords || ws[j] in cat.locationWords
    {
      if ws[i] !in cat.locationWords && ws[j] !in cat.locationWords {
        CountInTwoMisses(ws, cat.locationWords, i, j);
      }
    }
  }

  /** Without LAB, a line of one to six tokens, known ones but for at most
      one, and at least one known, is a location line. */
  lemma LocationLineFromTokens(line: string, cat: LessonCatalog, u: int)
    requires 1 <= |LineWords(line)| <= 6
    requires 0 <= u < |LineWords(line)|
    requires forall i :: 0 <= i < |LineWords(line)| && i != u ==> LineWords(line)[i] in cat.locationWords
    requires exists i :: 0 <= i < |LineWords(line)| && LineWords(line)[i] in cat.locationWords
    ensures IsLocationLine(line, cat)
  {
    var ws := LineWords(line);
    CountBut(ws, cat.locationWords, u);
  }

  /** Missing at most position `u` leaves a count of at least `|ws| - 1`,
      and at least one when something is in. */
  lemma {:induction false} CountBut(ws: seq<string>, known: set<string>, u: int)
    requires 0 <= u < |ws|
    requires forall i :: 0 <= i < |ws| && i != u ==> ws[i] in known
    requires exists i :: 0 <= i < |ws| && ws[i] in known
    ensures CountIn(ws, known) >= Max(1, |ws| - 1)
    decreases |ws|
  {
    if u == 0 {
      var t := ws[1..];
      assert forall i :: 0 <= i < |t| ==> t[i] == ws[i + 1];
      assert CountIn(t, known) == |t|;
      if |ws| == 1 {
        assert ws[0] in known;
      }
    } else {
      var t := ws[1..];
      assert ws[0] in known;
      assert forall i :: 0 <= i < |t| && i != u - 1 ==> t[i] in known by {
        forall i | 0 <= i < |t| && i != u - 1
          ensures t[i] in known
        {
          assert t[i] == ws[i + 1];
        }
      }
      assert CountIn(t, known) >= |t| - 1 by {
        if |t| == 1 {
        } else {
          assert exists i :: 0 <= i < |t| && t[i] in known by {
            var i := if u - 1 == 0 then 1 else 0;
            assert t[i] in known;
          }
          CountBut(t, known, u - 1);
        }
      }
    }
  }

  /** A line that stops the scan over a cell's lines. */
  predicate IsBreakLine(line: string, cat: LessonCatalog) {
    IsTeacherLine(line, cat) || IsLocationLine(line, cat)
  }

  /** Each line normalised, the lines left empty dropped, the rest in
      order. */
  function NonBlankLines(lines: seq<string>): (r: seq<string>)
    ensures forall i :: 0 <= i < |r| ==> r[i] != [] && IsNormal(r[i])
    ensures |r| <= |lines|
  {
    if lines == [] then []
    else
      var rest := NonBlankLines(lines[1..]);
      var l := Norm(lines[0]);
      if l == [] then rest
      else
        var r := [l] + rest;
        assert forall i :: 1 <= i < |r| ==> r[i] == rest[i - 1];
        r
  }

  /** Nothing is left exactly when every line is blank. */
  lemma {:induction false} NonBlankLinesEmpty(lines: seq<string>)
    ensures NonBlankLines(lines) == [] <==> forall i :: 0 <= i < |lines| ==> AllSpace(lines[i])
  {
    if lines != [] {
      NonBlankLinesEmpty(lines[1..]);
      NormEmpty(lines[0]);
      assert forall i :: 1 <= i < |lines| ==> lines[i] == lines[1..][i - 1];
    }
  }

  /** Lines are filtered one by one and in order: the lines of two lists
      one after the other are the two results one after the other. */
  lemma {:induction false} NonBlankLinesAppend(a: seq<string>, b: seq<string>)
    ensures NonBlankLines(a + b) == NonBlankLines(a) + NonBlankLines(b)
    decreases |a|
  {
    if a == [] {
      assert a + b == b;
    } else {
      assert (a + b)[0] == a[0] && (a + b)[1..] == a[1..] + b;
      NonBlankLinesAppend(a[1..], b);
    }
  }

  /** A single line is kept, normalised, exactly when it is not blank. */
  lemma NonBlankLinesOne(line: string)
    ensures NonBlankLines([line]) == if Norm(line) != [] then [Norm(line)] else []
  {
    assert [line][1..] == [];
  }

  /** The lines of a cell worth reading: normalised, blank ones dropped. */
  function CellLines(cell: string): (r: seq<string>)
    ensures forall i :: 0 <= i < |r| ==> r[i] != [] && IsNormal(r[i])
  {
    NonBlankLines(SplitLines(cell))
  }

  /** The test that ends the scan over a cell's lines. */
  function BreaksScan(cat: LessonCatalog): string -> bool {
    line => IsBreakLine(line, cat)
  }

  /** The lines before the first line that `stop` holds for. */
  function KeptPrefix(lines: seq<string>, stop: string -> bool): (r: seq<string>)
    ensures |r| <= |lines| && r == lines[..|r|]
    ensures forall i :: 0 <= i < |r| ==> !stop(r[i])
    ensures |r| < |lines| ==> stop(lines[|r|])
  {
    if lines == [] || stop(lines[0]) then []
    else
      var rest := KeptPrefix(lines[1..], stop);
      var r := [lines[0]] + rest;
      assert r[1..] == rest;
      r
  }

  /** Any prefix free of stop lines that ends at a stop line or at the end
      is the kept prefix. */
  lemma {:induction false} KeptPrefixUnique(lines: seq<string>, stop: string -> bool, p: seq<string>)
    requires |p| <= |lines| && p == lines[..|p|]
    requires forall i :: 0 <= i < |p| ==> !stop(p[i])
    requires |p| < |lines| ==> stop(lines[|p|])
    ensures p == KeptPrefix(lines, stop)
    decreases |p|
  {
    if p != [] {
      assert !stop(lines[0]) by { assert p[0] == lines[0]; }
      var q := p[1..];
      assert q == lines[1..][..|q|];
      assert forall i :: 0 <= i < |q| ==> q[i] == p[i + 1];
      KeptPrefixUnique(lines[1..], stop, q);
      assert p == [lines[0]] + q;
    }
  }

  /** The scan over the lines as a loop: walks forward until `stop` holds
      for a line, keeping the lines before it. */
  method ScanPrefix(lines: seq<string>, stop: string -> bool) returns (kept: seq<string>)
    ensures kept == KeptPrefix(lines, stop)
  {
    kept := [];
    var i := 0;
    while i < |lines|
      invariant 0 <= i <= |lines| && kept == lines[..i]
      invariant forall j :: 0 <= j < i ==> !stop(lines[j])
    {
      if stop(lines[i]) {
        break;
      }
      kept := kept + [lines[i]];
      i := i + 1;
    }
    KeptPrefixUnique(lines, stop, kept);
  }

  /** The kept lines are the lines before the first teacher or location
      line. */
  lemma KeptBeforeBreak(lines: seq<string>, cat: LessonCatalog)
    ensures var k := KeptPrefix(lines, BreaksScan(cat));
      && (forall i :: 0 <= i < |k| ==> !IsBreakLine(k[i], cat))
      && (|k| < |lines| ==> IsBreakLine(lines[|k|], cat))
  {
    var k := KeptPrefix(lines, BreaksScan(cat));
    assert forall i :: 0 <= i < |k| ==> !BreaksScan(cat)(k[i]);
  }

  /** The kept lines, or the first one or two lines when none were kept. */
  function KeptLines(lines: seq<string>, cat: LessonCatalog): (r: seq<string>)
    ensures lines != [] ==> r != []
    ensures |r| <= |lines| && r == lines[..|r|]
  {
    var k := KeptPrefix(lines, BreaksScan(cat));
    if k == [] then lines[..if |lines| < 2 then |lines| else 2] else k
  }

  /** The loop over a cell's lines that stops at the first teacher or
      location line, followed by the fallback to the first one or two lines
      when it kept nothing: the lines `extract_lesson_name` joins into its
      candidate. */
  method ScanKept(lines: seq<string>, cat: LessonCatalog) returns (kept: seq<string>)
    ensures kept == KeptLines(lines, cat)
  {
    kept := ScanPrefix(lines, BreaksScan(cat));
    if kept == [] {
      kept := lines[..if |lines| < 2 then |lines| else 2];
    }
  }

  /** The text matched against the catalog: the kept lines joined. Since
      they are non-empty normal lines, normalising the join changes nothing:
      the candidate is the lines joined by single spaces. */
  function Candidate(kept: seq<string>): (r: string)
    requires forall i :: 0 <= i < |kept| ==> kept[i] != [] && IsNormal(kept[i])
    ensures r == Unwords(kept)
    ensures IsNormal(r)
    ensures kept != [] ==> r != []
  {
    var joined := Unwords(kept);
    UnwordsNormalLines(kept);
    NormOfNormal(joined);
    Norm(joined)
  }

  /** The candidate text of a cell's lines. */
  function CandidateOf(lines: seq<string>, cat: LessonCatalog): (r: string)
    requires forall i :: 0 <= i < |lines| ==> lines[i] != [] && IsNormal(lines[i])
    ensures IsNormal(r)
    ensures lines != [] ==> r != []
  {
    var kept := KeptLines(lines, cat);
    assert forall i :: 0 <= i < |kept| ==> kept[i] == lines[i];
    Candidate(kept)
  }

  /** A token the clean-up drops: a teacher word, a location word, or a
      number. */
  predicate IsNoise(w: string, cat: LessonCatalog) {
    w in cat.teacherWords || w in cat.locationWords || IsDigits(w)
  }

  /** The tokens that are not noise, in their order. */
  function Cleaned(ws: seq<string>, cat: LessonCatalog): (r: seq<string>)
    ensures |r| <= |ws|
    ensures forall i :: 0 <= i < |r| ==> !IsNoise(r[i], cat) && r[i] in ws
    ensures forall i :: 0 <= i < |ws| && !IsNoise(ws[i], cat) ==> ws[i] in r
    ensures ProperWords(ws) ==> ProperWords(r)
  {
    if ws == [] then []
    else
      var rest := Cleaned(ws[1..], cat);
      assert forall i :: 1 <= i < |ws| ==> ws[i] == ws[1..][i - 1];
      if IsNoise(ws[0], cat) then rest
      else
        var r := [ws[0]] + rest;
        assert r[1..] == rest;
        r
  }

  /** Tokens are dropped one by one and in order: the clean-up of two token
      lists one after the other is the two clean-ups one after the other, so
      order and repeats are kept. */
  lemma {:induction false} CleanedAppend(a: seq<string>, b: seq<string>, cat: LessonCatalog)
    ensures Cleaned(a + b, cat) == Cleaned(a, cat) + Cleaned(b, cat)
    decreases |a|
  {
    if a == [] {
      assert a + b == b;
    } else {
      assert (a + b)[0] == a[0] && (a + b)[1..] == a[1..] + b;
      CleanedAppend(a[1..], b, cat);
    }
  }

  /** A single token survives exactly when it is not noise. */
  lemma CleanedOne(w: string, cat: LessonCatalog)
    ensures Cleaned([w], cat) == if IsNoise(w, cat) then [] else [w]
  {
    assert [w][1..] == [];
  }

  /** `extract_lesson_name_from_cell`. */
  function ExtractLessonName(cell: string, cat: LessonCatalog, sim: Similarity): (r: string)
    ensures r == [] <==> CellLines(cell) == []
    ensures WellFormed(cat) ==> IsNormal(r)
    ensures CellLines(cell) != [] ==>
      var m := BestLessonMatch(cat, sim, CandidateOf(CellLines(cell), cat));
      m.Some? && m.value != [] ==> r == m.value
  {
    if cell == [] then ""
    else
      var lines := CellLines(cell);
      if lines == [] then ""
      else
        var candidate := CandidateOf(lines, cat);
        var m := BestLessonMatch(cat, sim, candidate);
        if m.Some? && m.value != [] then
          MatchShape(cat, sim, candidate);
          m.value
        else
          var cleaned := Cleaned(SplitWords(NormUpper(candidate)), cat);
          if cleaned != [] then
            UnwordsNormal(cleaned);
            Unwords(cleaned)
          else candidate
  }

  /** A match found in a well-formed catalog is normal text. */
  lemma MatchShape(cat: LessonCatalog, sim: Similarity, candidate: string)
    ensures WellFormed(cat) && BestLessonMatch(cat, sim, candidate).Some? ==>
      IsNormal(BestLessonMatch(cat, sim, candidate).value)
  {
    if WellFormed(cat) && BestLessonMatch(cat, sim, candidate).Some? {
      var cand := NormUpper(candidate);
      var i :| Accepts(cat, sim, cand, MatchThreshold, i);
      assert cat.lessonNames[i] in cat.rawByNorm;
    }
  }

  /** A whitespace-only cell yields the empty name. */
  lemma BlankCellIsEmpty(cell: string, cat: LessonCatalog, sim: Similarity)
    requires AllSpace(cell)
    ensures ExtractLessonName(cell, cat, sim) == ""
  {
    SplitLinesAllSpace(cell);
    NonBlankLinesEmpty(SplitLines(cell));
  }

  /** Without a usable match, the result's tokens are exactly the candidate's
      tokens that are not noise, in order — or, when every token is noise,
      the result is the candidate itself. */
  lemma NoMatchResult(cell: string, cat: LessonCatalog, sim: Similarity)
    requires CellLines(cell) != []
    requires var m := BestLessonMatch(cat, sim, CandidateOf(CellLines(cell), cat)); m.None? || m.value == []
    ensures var candidate := CandidateOf(CellLines(cell), cat);
      var cleaned := Cleaned(SplitWords(NormUpper(candidate)), cat);
      && (cleaned != [] ==> ExtractLessonName(cell, cat, sim) == Unwords(cleaned))
      && (cleaned != [] ==> SplitWords(ExtractLessonName(cell, cat, sim)) == cleaned)
      && (cleaned == [] ==> ExtractLessonName(cell, cat, sim) == candidate)
  {
    var candidate := CandidateOf(CellLines(cell), cat);
    var cleaned := Cleaned(SplitWords(NormUpper(candidate)), cat);
    if cleaned != [] {
      SplitUnwords(cleaned);
    }
  }

  /** A cell whose candidate names a catalog lesson exactly yields that
      lesson's recorded spelling, when the ratio is 1.0 for identical texts
      only, as for difflib. */
  lemma CatalogNameCell(cell: string, cat: LessonCatalog, sim: Similarity)
    requires WellFormed(cat) && ExactOnlyAtOne(sim)
    requires CellLines(cell) != []
    requires NormUpper(CandidateOf(CellLines(cell), cat)) in cat.lessonNames
    ensures ExtractLessonName(cell, cat, sim) == cat.rawByNorm[NormUpper(CandidateOf(CellLines(cell), cat))]
  {
    var key := NormUpper(CandidateOf(CellLines(cell), cat));
    assert key in cat.rawByNorm;
    ExactNameMatches(cat, sim, CandidateOf(CellLines(cell), cat));
  }

  /** The day names the week grid's first column may hold. */
  const DayNames: seq<string> :=
    ["Pazartesi", "Sal\U{131}", "\U{C7}ar\U{15F}amba", "Per\U{15F}embe", "Cuma", "Cumartesi", "Pazar"]

  /** One row of the simplified schedule. */
  datatype DayLessons = DayLessons(day: string, lessons: seq<string>)

  /** The lesson names of a row's period cells, blank ones dropped. */
  function RowLessons(cells: seq<string>, cat: LessonCatalog, sim: Similarity): (r: seq<string>)
    ensures |r| <= |cells|
    ensures forall i :: 0 <= i < |r| ==> Norm(r[i]) != []
  {
    if cells == [] then []
    else
      var rest := RowLessons(cells[1..], cat, sim);
      var l := ExtractLessonName(cells[0], cat, sim);
      if Norm(l) == [] then rest
      else
        var r := [l] + rest;
        assert r[1..] == rest;
        r
  }

  /** Cells are handled one by one and in order: the names of two cell
      lists one after the other are the two name lists one after the other. */
  lemma {:induction false} RowLessonsAppend(a: seq<string>, b: seq<string>, cat: LessonCatalog, sim: Similarity)
    ensures RowLessons(a + b, cat, sim) == RowLessons(a, cat, sim) + RowLessons(b, cat, sim)
    decreases |a|
  {
    if a == [] {
      assert a + b == b;
    } else {
      assert (a + b)[0] == a[0] && (a + b)[1..] == a[1..] + b;
      RowLessonsAppend(a[1..], b, cat, sim);
    }
  }

  /** A single cell gives its lesson name unless that name is blank. */
  lemma RowLessonsOne(c: string, cat: LessonCatalog, sim: Similarity)
    ensures RowLessons([c], cat, sim) ==
      if Norm(ExtractLessonName(c, cat, sim)) != [] then [ExtractLessonName(c, cat, sim)] else []
  {
    assert [c][1..] == [];
  }

  /** The schedule line a week-grid row gives: none unless its first cell
      normalises to a day name. */
  function DayRow(row: Row, cat: LessonCatalog, sim: Similarity): (r: Option<DayLessons>)
    ensures r.Some? <==> row != [] && row[0] != [] && Norm(row[0]) in DayNames
    ensures r.Some? ==> r.value.day == Norm(row[0]) && |r.value.lessons| <= |row| - 1
    ensures r.Some? ==> r.value.lessons == RowLessons(row[1..], cat, sim)
    ensures r.Some? ==> forall i :: 0 <= i < |r.value.lessons| ==> Norm(r.value.lessons[i]) != []
  {
    if row == [] || row[0] == [] then None
    else
      var day := Norm(row[0]);
      if day !in DayNames then None
      else Some(DayLessons(day, RowLessons(row[1..], cat, sim)))
  }

  /** `make_simplified_schedule`: the day rows of the week grid, in order. */
  function MakeSimplifiedSchedule(table: seq<Row>, cat: LessonCatalog, sim: Similarity): (r: seq<DayLessons>)
    ensures |r| <= |table|
    ensures forall i :: 0 <= i < |r| ==> r[i].day in DayNames
  {
    if table == [] then []
    else
      var prev := MakeSimplifiedSchedule(table[..|table| - 1], cat, sim);
      match DayRow(table[|table| - 1], cat, sim)
      case None => prev
      case Some(d) => prev + [d]
  }

  /** The schedule of two grids one after the other is the two schedules
      one after the other: rows are filtered independently, order kept. */
  lemma {:induction false} ScheduleAppend(a: seq<Row>, b: seq<Row>, cat: LessonCatalog, sim: Similarity)
    ensures MakeSimplifiedSchedule(a + b, cat, sim) == MakeSimplifiedSchedule(a, cat, sim) + MakeSimplifiedSchedule(b, cat, sim)
    decreases |b|
  {
    if b != [] {
      var n := |b| - 1;
      assert (a + b)[..|a + b| - 1] == a + b[..n];
      assert (a + b)[|a + b| - 1] == b[n];
      ScheduleAppend(a, b[..n], cat, sim);
    } else {
      assert a + b == a;
    }
  }

  /** A single row is kept exactly when its first cell is a day name. */
  lemma ScheduleOfRow(row: Row, cat: LessonCatalog, sim: Similarity)
    ensures MakeSimplifiedSchedule([row], cat, sim) ==
      if row != [] && row[0] != [] && Norm(row[0]) in DayNames
      then [DayLessons(Norm(row[0]), RowLessons(row[1..], cat, sim))]
      else []
  {
    assert [row][..0] == [];
  }

  /** Saturday and Sunday rows are kept like any other day. */
  lemma WeekendRowsKept(row: Row, cat: LessonCatalog, sim: Similarity)
    requires row != [] && (Norm(row[0]) == "Cumartesi" || Norm(row[0]) == "Pazar")
    ensures |MakeSimplifiedSchedule([row], cat, sim)| == 1
    ensures MakeSimplifiedSchedule([row], cat, sim)[0].day == Norm(row[0])
  {
    assert DayNames[5] == "Cumartesi" && DayNames[6] == "Pazar";
    assert row[0] != [] by {
      NormEmpty(row[0]);
    }
    ScheduleOfRow(row, cat, sim);
  }
}

=== FILE: results.dfy ===
/** Optional values and results with an error side, used wherever the
    modelled code returns None or raises. */
module Results {

  /** Python's `Optional[T]`: either nothing or a value. */
  datatype Option<+T> = None | Some(value: T)

  /** The outcome of an operation that may raise: a value or an error. */
  datatype Result<+T, +E> = Ok(value: T) | Err(error: E)
}

=== FILE: schedules.dfy ===
/** Teacher schedules in the web front end: merging the schedules read from
    several pages and files, counting a teacher's hours, and choosing the
    teachers the preview and the PDF show. */
module TeacherSchedules {
  import opened Results
  import opened Sorting

  /** One taught hour: the lesson and the class it is taught to. */
  type Lesson = (string, string)

  /** One day of a teacher: period number to the lessons in that period. */
  type Periods = map<int, seq<Lesson>>

  /** A teacher's week: day name to that day's periods. */
  type Week = map<string, Periods>

  /** `TeacherSchedules`: teacher name to that teacher's week. */
  type Schedules = map<string, Week>

  /** `periods.get(p, [])`. */
  function SlotOf(p: Periods, k: int): seq<Lesson> {
    if k in p then p[k] else []
  }

  /** `by_day.get(day, {})`. */
  function DayOf(w: Week, d: string): Periods {
    if d in w then w[d] else map[]
  }

  /** The lessons a schedule holds for a teacher, day and period. */
  function Slot(s: Schedules, t: string, d: string, k: int): seq<Lesson> {
    if t in s then SlotOf(DayOf(s[t], d), k) else []
  }

  /** The periods of a day that hold at least one lesson. */
  function Filled(p: Periods): set<int> {
    set k | k in p && p[k] != []
  }

  /* ---------------- merge ---------------- */

  /** The innermost merge loop on one day: every non-empty incoming list is
      appended to the target's list, which is created when missing; empty
      incoming lists are skipped. */
  function MergePeriods(ex: Periods, src: Periods): (r: Periods)
    ensures r.Keys == ex.Keys + Filled(src)
  {
    map k | k in ex.Keys + Filled(src) :: SlotOf(ex, k) + SlotOf(src, k)
  }

  /** Each period of the merged day lists the target's lessons, then the
      incoming one's. */
  lemma PeriodsSlots(ex: Periods, src: Periods, k: int)
    ensures SlotOf(MergePeriods(ex, src), k) == SlotOf(ex, k) + SlotOf(src, k)
  {
  }

  /** The merge of one teacher's week into the week already collected:
      every incoming day is looked up with `setdefault`, so it becomes a day
      of the result even when all its lists are empty. */
  function MergeWeek(ex: Week, src: Week): (r: Week)
    ensures r.Keys == ex.Keys + src.Keys
  {
    map d | d in ex.Keys + src.Keys ::
      if d in src then MergePeriods(DayOf(ex, d), src[d]) else ex[d]
  }

  /** A day only the target has is unchanged; an incoming day keeps the
      target's periods and gains the periods the incoming day fills. */
  lemma WeekDays(ex: Week, src: Week, d: string)
    ensures d in ex && d !in src ==> MergeWeek(ex, src)[d] == ex[d]
    ensures d in src ==> MergeWeek(ex, src)[d].Keys == DayOf(ex, d).Keys + Filled(src[d])
  {
  }

  /** Each slot of the merged week lists the target's lessons, then the
      incoming one's. */
  lemma WeekSlots(ex: Week, src: Week, d: string, k: int)
    ensures SlotOf(DayOf(MergeWeek(ex, src), d), k) == SlotOf(DayOf(ex, d), k) + SlotOf(DayOf(src, d), k)
  {
    if d in src {
      PeriodsSlots(DayOf(ex, d), src[d], k);
    }
  }

  /** The per-teacher merge of one page's (or one file's) schedules into the
      schedules collected so far. */
  function Merge(all: Schedules, page: Schedules): (r: Schedules)
    ensures r.Keys == all.Keys + page.Keys
    ensures forall t :: t in page && t !in all ==> t in r && r[t] == page[t]
    ensures forall t :: t in all && t !in page ==> t in r && r[t] == all[t]
    ensures forall t :: t in all && t in page ==> t in r && r[t] == MergeWeek(all[t], page[t])
  {
    map t | t in all.Keys + page.Keys ::
      if t !in all then page[t] else if t in page then MergeWeek(all[t], page[t]) else all[t]
  }

  /** Merging only appends: every slot of the result is the target's slot
      followed by the incoming one's, so nothing is replaced, reordered or
      dropped, and no duplicates are removed. */
  lemma MergeSlots(all: Schedules, page: Schedules, t: string, d: string, k: int)
    ensures Slot(Merge(all, page), t, d, k) == Slot(all, t, d, k) + Slot(page, t, d, k)
  {
    if t in all && t in page {
      WeekSlots(all[t], page[t], d, k);
    }
  }

  /** A slot of the result exists exactly when the target had it or the
      incoming week fills it: empty incoming lists create no slot. */
  lemma MergeCreatesOnlyFilled(all: Schedules, page: Schedules, t: string, d: string)
    requires t in all && t in page && d in page[t]
    ensures var r := Merge(all, page)[t][d];
      forall k :: k in r <==> k in DayOf(all[t], d) || (k in page[t][d] && page[t][d][k] != [])
  {
    WeekDays(all[t], page[t], d);
  }

  /* The innermost merge loop as the program runs it: over the incoming
     day's periods in whatever order the dictionary yields them, appending
     to the target day. `PeriodsDone` is the target day once the periods
     in `done` have been handled. */

  /** Some element of a non-empty set. */
  lemma Pick<T>(s: set<T>) returns (x: T)
    requires s != {}
    ensures x in s
  {
    x :| x in s;
  }

  function PeriodsDone(ex: Periods, src: Periods, done: set<int>): Periods {
    map k | k in ex.Keys + (Filled(src) * done) :: SlotOf(ex, k) + (if k in done then SlotOf(src, k) else [])
  }

  lemma PeriodsNoneDone(ex: Periods, src: Periods)
    ensures PeriodsDone(ex, src, {}) == ex
  {
    var m := PeriodsDone(ex, src, {});
    assert m.Keys == ex.Keys;
    assert forall k :: k in m ==> m[k] == ex[k];
  }

  lemma PeriodsStep(ex: Periods, src: Periods, done: set<int>, k: int)
    requires k in src && k !in done
    ensures var m := PeriodsDone(ex, src, done);
      PeriodsDone(ex, src, done + {k}) == if src[k] != [] then m[k := SlotOf(m, k) + src[k]] else m
  {
    var m := PeriodsDone(ex, src, done);
    var n := PeriodsDone(ex, src, done + {k});
    assert SlotOf(m, k) == SlotOf(ex, k);
    if src[k] != [] {
      var m' := m[k := SlotOf(m, k) + src[k]];
      assert n.Keys == m'.Keys;
      assert forall j :: j in n ==> n[j] == m'[j];
    } else {
      assert n.Keys == m.Keys;
      assert forall j :: j in n ==> n[j] == m[j];
    }
  }

  lemma PeriodsAllDone(ex: Periods, src: Periods)
    ensures PeriodsDone(ex, src, src.Keys) == MergePeriods(ex, src)
  {
  }

  /** The loop over one day's periods, `continue` on an empty list. */
  method MergePeriodsLoop(ex: Periods, src: Periods) returns (r: Periods)
    ensures r == MergePeriods(ex, src)
  {
    r := ex;
    var todo := src.Keys;
    PeriodsNoneDone(ex, src);
    while todo != {}
      invariant todo <= src.Keys
      invariant r == PeriodsDone(ex, src, src.Keys - todo)
      decreases |todo|
    {
      ghost var some := Pick(todo);
      var k :| k in todo;
      PeriodsStep(ex, src, src.Keys - todo, k);
      if src[k] != [] {
        r := r[k := SlotOf(r, k) + src[k]];
      }
      assert src.Keys - (todo - {k}) == (src.Keys - todo) + {k};
      todo := todo - {k};
    }
    PeriodsAllDone(ex, src);
  }

  /** The schedules of all pages (or all files) merged in order into an
      initially empty collection. */
  function MergeAll(pages: seq<Schedules>): (r: Schedules)
    ensures forall t :: t in r <==> exists i :: 0 <= i < |pages| && t in pages[i]
  {
    if pages == [] then map[]
    else
      var prev := pages[..|pages| - 1];
      var r := Merge(MergeAll(prev), pages[|pages| - 1]);
      assert forall i :: 0 <= i < |prev| ==> prev[i] == pages[i];
      r
  }

  /** A slot's lessons in every page, concatenated in page order. */
  function SlotsIn(pages: seq<Schedules>, t: string, d: string, k: int): seq<Lesson> {
    if pages == [] then []
    else SlotsIn(pages[..|pages| - 1], t, d, k) + Slot(pages[|pages| - 1], t, d, k)
  }

  /** After merging all pages, each slot lists the lessons of that slot in
      every page, in page order. */
  lemma {:induction false} MergeAllSlots(pages: seq<Schedules>, t: string, d: string, k: int)
    ensures Slot(MergeAll(pages), t, d, k) == SlotsIn(pages, t, d, k)
  {
    if pages != [] {
      var prev := pages[..|pages| - 1];
      MergeAllSlots(prev, t, d, k);
      MergeSlots(MergeAll(prev), pages[|pages| - 1], t, d, k);
    }
  }

  /* ---------------- total hours ---------------- */

  /** Whether period `k` of a day holds a lesson. */
  predicate IsFilled(p: Periods, k: int) {
    SlotOf(p, k) != []
  }

  /** The number of filled periods among `1..n`. */
  function FilledUpTo(p: Periods, n: nat): (c: nat)
    ensures c <= n
  {
    if n == 0 then 0 else FilledUpTo(p, n - 1) + (if IsFilled(p, n) then 1 else 0)
  }

  /** The total-hours count: the filled (day, period) slots over the week
      days and the periods 1 to 9, written as the generator sum of the PDF
      builder. */
  function TotalHours(w: Week, days: seq<string>): (h: nat)
    ensures h <= 9 * |days|
  {
    if days == [] then 0
    else TotalHours(w, days[..|days| - 1]) + FilledUpTo(DayOf(w, days[|days| - 1]), 9)
  }

  /** The same count as the preview writes it: nested loops over the days
      and the periods, adding one per filled slot. */
  method CountHours(w: Week, days: seq<string>) returns (total: nat)
    ensures total == TotalHours(w, days)
  {
    total := 0;
    var i := 0;
    while i < |days|
      invariant 0 <= i <= |days|
      invariant total == TotalHours(w, days[..i])
    {
      var periods := DayOf(w, days[i]);
      var p := 1;
      var before := total;
      while p < 10
        invariant 1 <= p <= 10
        invariant total == before + FilledUpTo(periods, p - 1)
      {
        if SlotOf(periods, p) != [] {
          total := total + 1;
        }
        p := p + 1;
      }
      assert days[..i + 1][..i] == days[..i];
      i := i + 1;
    }
    assert days[..|days|] == days;
  }

  /** No filled period among `1..n` means a count of zero, and all filled
      means a count of `n`. */
  lemma {:induction false} FilledUpToExtremes(p: Periods, n: nat)
    ensures FilledUpTo(p, n) == 0 <==> forall k :: 1 <= k <= n ==> !IsFilled(p, k)
    ensures FilledUpTo(p, n) == n <==> forall k :: 1 <= k <= n ==> IsFilled(p, k)
  {
    if n > 0 {
      FilledUpToExtremes(p, n - 1);
    }
  }

  /** A teacher has no hours exactly when no week day has a filled period
      among 1 to 9. */
  lemma {:induction false} NoHours(w: Week, days: seq<string>)
    ensures TotalHours(w, days) == 0 <==>
      forall i, k :: 0 <= i < |days| && 1 <= k <= 9 ==> !IsFilled(DayOf(w, days[i]), k)
  {
    if days != [] {
      var prev := days[..|days| - 1];
      NoHours(w, prev);
      FilledUpToExtremes(DayOf(w, days[|days| - 1]), 9);
      assert forall i :: 0 <= i < |prev| ==> prev[i] == days[i];
    }
  }

  /** Counting is monotone: more filled periods never count fewer. */
  lemma {:induction false} FilledUpToMonotone(a: Periods, b: Periods, n: nat)
    requires forall k :: 1 <= k <= n && IsFilled(a, k) ==> IsFilled(b, k)
    ensures FilledUpTo(a, n) <= FilledUpTo(b, n)
  {
    if n > 0 {
      FilledUpToMonotone(a, b, n - 1);
    }
  }

  /** A period filled in `c` is filled in `a` or in `b`: `c` counts at most
      what `a` and `b` count together. */
  lemma {:induction false} FilledUpToUnion(a: Periods, b: Periods, c: Periods, n: nat)
    requires forall k :: 1 <= k <= n && IsFilled(c, k) ==> IsFilled(a, k) || IsFilled(b, k)
    ensures FilledUpTo(c, n) <= FilledUpTo(a, n) + FilledUpTo(b, n)
  {
    if n > 0 {
      FilledUpToUnion(a, b, c, n - 1);
    }
  }

  /** Merging a week in never lowers a teacher's hours and raises them by at
      most the hours of the merged-in week. */
  lemma {:induction false} MergeHours(ex: Week, src: Week, days: seq<string>)
    ensures TotalHours(ex, days) <= TotalHours(MergeWeek(ex, src), days)
    ensures TotalHours(MergeWeek(ex, src), days) <= TotalHours(ex, days) + TotalHours(src, days)
  {
    if days != [] {
      var m := MergeWeek(ex, src);
      var d := days[|days| - 1];
      MergeHours(ex, src, days[..|days| - 1]);
      FilledUpToMonotone(DayOf(ex, d), DayOf(m, d), 9);
      FilledUpToUnion(DayOf(ex, d), DayOf(src, d), DayOf(m, d), 9);
    }
  }

  /* ---------------- teacher selection ---------------- */

  lemma StrictIsSorted(xs: seq<string>)
    requires StrictlySorted(xs)
    ensures Sorted(xs)
  {
  }

  /** The teachers of the HTML preview: all teachers in name order, kept
      only when selected if there is a selection; an empty result is shown
      as a "no teacher" message. */
  function PreviewTeachers(s: Schedules, selected: Option<seq<string>>): (r: seq<string>)
    ensures StrictlySorted(r)
    ensures forall t :: t in r <==> t in s && (selected.Some? ==> t in selected.value)
  {
    var all := SortSet(s.Keys);
    if selected.None? then all
    else
      var kept := KeepIn(all, set t | t in selected.value);
      KeepInStrictlySorted(all, set t | t in selected.value);
      StrictIsSorted(kept);
      SortSeqOfSorted(kept);
      SortSeq(kept)
  }

  /** The teachers of the PDF, one block each: all teachers in name order
      without a selection, otherwise the selected names that are teachers,
      sorted, one entry per time a name is selected. An empty list means
      the PDF is the empty byte string. */
  function PdfTeachers(s: Schedules, selected: Option<seq<string>>): (r: seq<string>)
    ensures Sorted(r)
    ensures forall t :: t in r <==> t in s && (selected.Some? ==> t in selected.value)
    ensures selected.None? ==> StrictlySorted(r)
    ensures selected.Some? ==> forall t :: t in s ==> multiset(r)[t] == multiset(selected.value)[t]
  {
    if s == map[] then []
    else if selected.None? then SortSet(s.Keys)
    else
      var kept := KeepIn(selected.value, s.Keys);
      KeepInCounts(selected.value, s.Keys);
      var r := SortSeq(kept);
      assert forall t :: t in r <==> t in multiset(r);
      r
  }

  /** The PDF is empty exactly when there is no teacher, or a selection
      names none of them. */
  lemma PdfEmpty(s: Schedules, selected: Option<seq<string>>)
    ensures PdfTeachers(s, selected) == [] <==>
      s == map[] || (selected.Some? && forall t :: t in selected.value ==> t !in s)
  {
  }

  /** Without a selection, or with one that names nobody twice, the PDF and
      the preview list the same teachers in the same order. */
  lemma SelectionsAgree(s: Schedules, selected: Option<seq<string>>)
    requires selected.Some? ==> Distinct(selected.value)
    ensures PdfTeachers(s, selected) == PreviewTeachers(s, selected)
  {
    var pdf := PdfTeachers(s, selected);
    var html := PreviewTeachers(s, selected);
    if selected.Some? {
      assert Distinct(pdf) by {
        forall t
          ensures multiset(pdf)[t] <= 1
        {
          if t !in s {
            assert t !in pdf;
          }
        }
      }
      SortedDistinctIsStrict(pdf);
    }
    StrictlySortedUnique(pdf, html);
  }

  /** A name selected twice appears twice in the PDF but once in the
      preview. */
  lemma DuplicateSelection(s: Schedules, sel: seq<string>, i: nat, j: nat)
    requires i < j < |sel| && sel[i] == sel[j] && sel[i] in s
    ensures multiset(PdfTeachers(s, Some(sel)))[sel[i]] >= 2
    ensures multiset(PreviewTeachers(s, Some(sel)))[sel[i]] == 1
  {
    TwiceCounted(sel, i, j);
    var html := PreviewTeachers(s, Some(sel));
    SortedDistinctIsStrictCount(html, sel[i]);
  }

  /** A strictly sorted sequence holds each of its values once. */
  lemma SortedDistinctIsStrictCount(xs: seq<string>, x: string)
    requires StrictlySorted(xs) && x in xs
    ensures multiset(xs)[x] == 1
  {
    var k :| 0 <= k < |xs| && xs[k] == x;
    assert xs == xs[..k] + [x] + xs[k + 1..];
    assert x !in xs[..k] by {
      forall m | 0 <= m < k
        ensures xs[..k][m] != x
      {
        LessIrreflexiveAt(xs, m, k);
      }
    }
    assert x !in xs[k + 1..] by {
      forall m | k < m < |xs|
        ensures xs[m] != x
      {
        LessIrreflexiveAt(xs, k, m);
      }
    }
  }

  lemma LessIrreflexiveAt(xs: seq<string>, a: nat, b: nat)
    requires StrictlySorted(xs) && a < b < |xs|
    ensures xs[a] != xs[b]
  {
    LessIrreflexive(xs[a]);
  }
}

=== FILE: sorting.dfy ===
/** Python's ordering of `str` values and the `sorted(...)` / `list.sort()`
    calls the program makes on lesson and teacher names. */
module Sorting {

  /** `a < b` on Python strings: code point by code point, a proper prefix
      coming first. */
  predicate Less(a: string, b: string)
    decreases |a|
  {
    if a == [] then b != []
    else if b == [] then false
    else if a[0] != b[0] then a[0] < b[0]
    else Less(a[1..], b[1..])
  }

  predicate LessEq(a: string, b: string) {
    a == b || Less(a, b)
  }

  lemma {:induction false} LessIrreflexive(a: string)
    ensures !Less(a, a)
    decreases |a|
  {
    if a != [] {
      LessIrreflexive(a[1..]);
    }
  }

  lemma {:induction false} LessTransitive(a: string, b: string, c: string)
    requires Less(a, b) && Less(b, c)
    ensures Less(a, c)
    decreases |a|
  {
    if a != [] && a[0] == b[0] && b[0] == c[0] {
      LessTransitive(a[1..], b[1..], c[1..]);
    }
  }

  lemma {:induction false} LessTrichotomy(a: string, b: string)
    ensures a == b || Less(a, b) || Less(b, a)
    decreases |a|
  {
    if a != [] && b != [] && a[0] == b[0] {
      LessTrichotomy(a[1..], b[1..]);
      if a[1..] == b[1..] {
        assert a == [a[0]] + a[1..] && b == [b[0]] + b[1..];
      }
    }
  }

  lemma {:induction false} LessAsymmetric(a: string, b: string)
    requires Less(a, b)
    ensures !Less(b, a)
    decreases |a|
  {
    if a != [] && a[0] == b[0] {
      LessAsymmetric(a[1..], b[1..]);
    }
  }

  lemma LessEqTransitive(a: string, b: string, c: string)
    requires LessEq(a, b) && LessEq(b, c)
    ensures LessEq(a, c)
  {
    if a != b && b != c {
      LessTransitive(a, b, c);
    }
  }

  /** Strictly ascending: sorted and free of duplicates. */
  predicate StrictlySorted(xs: seq<string>) {
    forall i, j :: 0 <= i < j < |xs| ==> Less(xs[i], xs[j])
  }

  /** Ascending, duplicates allowed. */
  predicate Sorted(xs: seq<string>) {
    forall i, j :: 0 <= i < j < |xs| ==> LessEq(xs[i], xs[j])
  }

  /** No value occurs twice. */
  ghost predicate Distinct(xs: seq<string>) {
    forall x :: multiset(xs)[x] <= 1
  }

  predicate IsLeast(m: string, s: set<string>) {
    m in s && forall x :: x in s ==> LessEq(m, x)
  }

  lemma {:induction false} LeastExists(s: set<string>)
    requires s != {}
    ensures exists m :: IsLeast(m, s)
    decreases |s|
  {
    var x :| x in s;
    if s == {x} {
      assert IsLeast(x, s);
    } else {
      LeastExists(s - {x});
      var m :| IsLeast(m, s - {x});
      LessTrichotomy(m, x);
      if Less(x, m) {
        forall y | y in s
          ensures LessEq(x, y)
        {
          if y != x {
            LessEqTransitive(x, m, y);
          }
        }
        assert IsLeast(x, s);
      } else {
        assert IsLeast(m, s);
      }
    }
  }

  lemma LeastUnique(s: set<string>)
    ensures forall a, b :: IsLeast(a, s) && IsLeast(b, s) ==> a == b
  {
    forall a, b | IsLeast(a, s) && IsLeast(b, s)
      ensures a == b
    {
      if a != b {
        LessAsymmetric(a, b);
      }
    }
  }

  /** Putting the least element of `s` in front of the sorted rest sorts `s`. */
  lemma ConsLeast(m: string, s: set<string>, rest: seq<string>)
    requires IsLeast(m, s) && StrictlySorted(rest)
    requires forall x :: x in rest <==> x in s - {m}
    ensures StrictlySorted([m] + rest)
    ensures forall x :: x in [m] + rest <==> x in s
  {
    var r := [m] + rest;
    forall i, j | 0 <= i < j < |r|
      ensures Less(r[i], r[j])
    {
      assert r[j] == rest[j - 1];
      if i > 0 {
        assert r[i] == rest[i - 1];
      } else {
        assert r[j] in s - {m};
      }
    }
  }

  /** `sorted(s)` for a set of strings: its elements in ascending order. */
  function SortSet(s: set<string>): (r: seq<string>)
    ensures StrictlySorted(r)
    ensures forall x :: x in r <==> x in s
    ensures |r| == |s|
    decreases |s|
  {
    if s == {} then []
    else
      LeastExists(s);
      LeastUnique(s);
      var m :| IsLeast(m, s);
      var rest := SortSet(s - {m});
      ConsLeast(m, s, rest);
      [m] + rest
  }

  /** Inserts `x` into a sorted sequence, keeping it sorted. */
  function Insert(x: string, ys: seq<string>): (r: seq<string>)
    requires Sorted(ys)
    ensures Sorted(r)
    ensures multiset(r) == multiset(ys) + multiset{x}
  {
    if ys == [] then [x]
    else if LessEq(x, ys[0]) then
      var r := [x] + ys;
      forall i, j | 0 <= i < j < |r|
        ensures LessEq(r[i], r[j])
      {
        if i == 0 {
          LessEqTransitive(x, ys[0], r[j]);
        }
      }
      r
    else
      var rest := Insert(x, ys[1..]);
      var r := [ys[0]] + rest;
      LessTrichotomy(x, ys[0]);
      assert ys == [ys[0]] + ys[1..];
      forall j | 0 < j < |r|
        ensures LessEq(ys[0], r[j])
      {
        assert r[j] == rest[j - 1];
        assert r[j] in multiset(rest);
      }
      r
  }

  /** `list.sort()` on strings: a sorted permutation. */
  function SortSeq(xs: seq<string>): (r: seq<string>)
    ensures Sorted(r)
    ensures multiset(r) == multiset(xs)
  {
    if xs == [] then []
    else
      assert xs == [xs[0]] + xs[1..];
      Insert(xs[0], SortSeq(xs[1..]))
  }

  /** Two positions holding one value make it occur twice. */
  lemma TwiceCounted(xs: seq<string>, i: nat, j: nat)
    requires i < j < |xs| && xs[i] == xs[j]
    ensures multiset(xs)[xs[i]] >= 2
  {
    assert xs == xs[..i] + [xs[i]] + xs[i + 1..j] + [xs[j]] + xs[j + 1..];
  }

  lemma SortedDistinctIsStrict(xs: seq<string>)
    requires Sorted(xs) && Distinct(xs)
    ensures StrictlySorted(xs)
  {
    forall i, j | 0 <= i < j < |xs|
      ensures Less(xs[i], xs[j])
    {
      if xs[i] == xs[j] {
        TwiceCounted(xs, i, j);
      }
    }
  }

  /** A strictly sorted sequence is determined by its elements. */
  lemma {:induction false} StrictlySortedUnique(a: seq<string>, b: seq<string>)
    requires StrictlySorted(a) && StrictlySorted(b)
    requires forall x :: x in a <==> x in b
    ensures a == b
    decreases |a|
  {
    assert a != [] ==> a[0] in b;
    assert b != [] ==> b[0] in a;
    if a != [] {
      assert a[0] == b[0] by {
        assert a[0] in b && b[0] in a;
        var i :| 0 <= i < |b| && b[i] == a[0];
        var j :| 0 <= j < |a| && a[j] == b[0];
        if a[0] != b[0] {
          assert Less(b[0], a[0]) by { assert i > 0; }
          assert Less(a[0], b[0]) by { assert j > 0; }
          LessAsymmetric(a[0], b[0]);
        }
      }
      forall x
        ensures x in a[1..] <==> x in b[1..]
      {
        if x in a[1..] {
          var k :| 1 <= k < |a| && a[k] == x;
          assert Less(a[0], x);
          LessIrreflexive(x);
          assert x in b;
          assert x != b[0];
        }
        if x in b[1..] {
          var k :| 1 <= k < |b| && b[k] == x;
          assert Less(b[0], x);
          LessIrreflexive(x);
          assert x in a;
          assert x != a[0];
        }
      }
      StrictlySortedUnique(a[1..], b[1..]);
      assert a == [a[0]] + a[1..] && b == [b[0]] + b[1..];
    }
  }

  /** A sorted sequence sorts to itself. */
  lemma {:induction false} SortSeqOfSorted(xs: seq<string>)
    requires Sorted(xs)
    ensures SortSeq(xs) == xs
  {
    if xs != [] {
      var t := xs[1..];
      assert Sorted(t);
      SortSeqOfSorted(t);
      assert SortSeq(xs) == Insert(xs[0], t);
      if t != [] {
        assert LessEq(xs[0], t[0]);
      }
      assert Insert(xs[0], t) == [xs[0]] + t;
    }
  }

  /** `[x for x in xs if x in keep]`. */
  function KeepIn(xs: seq<string>, keep: set<string>): (r: seq<string>)
    ensures forall x :: x in r <==> x in xs && x in keep
  {
    if xs == [] then []
    else if xs[0] in keep then [xs[0]] + KeepIn(xs[1..], keep)
    else KeepIn(xs[1..], keep)
  }

  /** Filtering keeps every occurrence of a kept value and none of the
      others. */
  lemma {:induction false} KeepInCounts(xs: seq<string>, keep: set<string>)
    ensures forall x :: multiset(KeepIn(xs, keep))[x] == if x in keep then multiset(xs)[x] else 0
  {
    if xs != [] {
      KeepInCounts(xs[1..], keep);
      assert xs == [xs[0]] + xs[1..];
    }
  }

  lemma KeepInDistinct(xs: seq<string>, keep: set<string>)
    requires Distinct(xs)
    ensures Distinct(KeepIn(xs, keep))
  {
    KeepInCounts(xs, keep);
  }

  /** Filtering keeps a strictly sorted sequence strictly sorted. */
  lemma {:induction false} KeepInStrictlySorted(xs: seq<string>, keep: set<string>)
    requires StrictlySorted(xs)
    ensures StrictlySorted(KeepIn(xs, keep))
  {
    if xs != [] {
      var t := xs[1..];
      assert StrictlySorted(t);
      KeepInStrictlySorted(t, keep);
      if xs[0] in keep {
        var rest := KeepIn(t, keep);
        var r := [xs[0]] + rest;
        forall i, j | 0 <= i < j < |r|
          ensures Less(r[i], r[j])
        {
          assert r[j] == rest[j - 1];
          if i > 0 {
            assert r[i] == rest[i - 1];
          } else {
            assert r[j] in t;
          }
        }
      }
    }
  }
}

=== FILE: text.dfy ===
/** Whitespace, line and token handling as Python's `str` and `re` do it on
    the extracted cell text: `\s`, `strip`, `split`, `" ".join`,
    `splitlines`, `replace`, and the `_norm` canonicaliser built from them. */
module Text {

  /** A code point Python's `str.isspace()` accepts. The same set drives the
      regular-expression class `\s`, `str.split()` and `str.strip()`. */
  predicate IsSpace(c: char) {
    || ('\t' <= c && c <= '\r')
    || ('\U{1C}' <= c && c <= ' ')
    || c == '\U{85}' || c == '\U{A0}' || c == '\U{1680}'
    || ('\U{2000}' <= c && c <= '\U{200A}')
    || c == '\U{2028}' || c == '\U{2029}' || c == '\U{202F}' || c == '\U{205F}' || c == '\U{3000}'
  }

  /** The no-break space that `_norm` replaces before collapsing. */
  const NBSP: char := '\U{A0}'

  /** A code point at which `str.splitlines()` ends a line. */
  predicate IsLineBreak(c: char) {
    || c == '\n' || c == '\r' || c == '\U{0B}' || c == '\U{0C}'
    || ('\U{1C}' <= c && c <= '\U{1E}')
    || c == '\U{85}' || c == '\U{2028}' || c == '\U{2029}'
  }

  predicate AllSpace(s: string) {
    forall i :: 0 <= i < |s| ==> IsSpace(s[i])
  }

  predicate SpaceFree(s: string) {
    forall i :: 0 <= i < |s| ==> !IsSpace(s[i])
  }

  /** Every whitespace character is the plain space U+0020. */
  predicate BlanksOnly(s: string) {
    forall i :: 0 <= i < |s| && IsSpace(s[i]) ==> s[i] == ' '
  }

  predicate NoDoubleSpace(s: string) {
    forall i, j :: 0 <= i < |s| && 0 <= j < |s| && j == i + 1 ==> !(IsSpace(s[i]) && IsSpace(s[j]))
  }

  predicate NoEdgeSpace(s: string) {
    |s| > 0 ==> !IsSpace(s[0]) && !IsSpace(s[|s| - 1])
  }

  /** The shape of `_norm`'s output: trimmed, single plain spaces only. */
  predicate IsNormal(s: string) {
    NoEdgeSpace(s) && BlanksOnly(s) && NoDoubleSpace(s)
  }

  /** Contains no line-break character: one line of text. */
  predicate SingleLine(s: string) {
    forall i :: 0 <= i < |s| ==> !IsLineBreak(s[i])
  }

  lemma NormalIsSingleLine(s: string)
    requires IsNormal(s)
    ensures SingleLine(s)
  {
  }

  /** A slice of a string keeps the blank-only and no-double-space shapes. */
  lemma SliceKeepsShape(s: string, a: nat, b: nat)
    requires a <= b <= |s|
    ensures BlanksOnly(s) ==> BlanksOnly(s[a..b])
    ensures NoDoubleSpace(s) ==> NoDoubleSpace(s[a..b])
  {
    var t := s[a..b];
    assert forall i :: 0 <= i < |t| ==> t[i] == s[a + i];
  }

  /** `s.replace(c, rep)` for a one-character pattern. */
  function ReplaceAll(s: string, c: char, rep: string): (r: string)
    ensures c !in rep ==> c !in r
    ensures c !in s ==> r == s
  {
    if s == [] then [] else (if s[0] == c then rep else [s[0]]) + ReplaceAll(s[1..], c, rep)
  }

  lemma {:induction false} ReplaceAllConcat(a: string, b: string, c: char, rep: string)
    ensures ReplaceAll(a + b, c, rep) == ReplaceAll(a, c, rep) + ReplaceAll(b, c, rep)
  {
    if a != [] {
      var h := if a[0] == c then rep else [a[0]];
      assert (a + b)[0] == a[0] && (a + b)[1..] == a[1..] + b;
      ReplaceAllConcat(a[1..], b, c, rep);
      assert ReplaceAll(a + b, c, rep) == h + (ReplaceAll(a[1..], c, rep) + ReplaceAll(b, c, rep));
      assert ReplaceAll(a, c, rep) == h + ReplaceAll(a[1..], c, rep);
    } else {
      assert a + b == b;
    }
  }

  /** Replacing one whitespace character by another keeps a string blank
      exactly when it was. */
  lemma {:induction false} ReplaceSpaceBySpace(s: string, c: char, d: char)
    requires IsSpace(c) && IsSpace(d)
    ensures AllSpace(ReplaceAll(s, c, [d])) <==> AllSpace(s)
  {
    if s != [] {
      ReplaceSpaceBySpace(s[1..], c, d);
      var h := if s[0] == c then [d] else [s[0]];
      AllSpaceConcat(h, ReplaceAll(s[1..], c, [d]));
      AllSpaceConcat([s[0]], s[1..]);
      assert s == [s[0]] + s[1..];
    }
  }

  lemma NotInSlice(s: string, c: char, a: nat, b: nat)
    requires a <= b <= |s| && c !in s
    ensures c !in s[a..b]
  {
  }

  /** `s.lstrip()`: drops leading whitespace. */
  function DropSpaces(s: string): (r: string)
    ensures |r| <= |s|
    ensures r == [] || !IsSpace(r[0])
  {
    if s != [] && IsSpace(s[0]) then DropSpaces(s[1..]) else s
  }

  /** What `lstrip` keeps is a suffix, and what it drops is whitespace. */
  lemma {:induction false} LeadingSpaces(s: string)
    ensures s[|s| - |DropSpaces(s)|..] == DropSpaces(s)
    ensures AllSpace(s[..|s| - |DropSpaces(s)|])
  {
    if s != [] && IsSpace(s[0]) {
      var r := DropSpaces(s[1..]);
      LeadingSpaces(s[1..]);
      assert s[..|s| - |r|] == [s[0]] + s[1..][..|s| - 1 - |r|];
      AllSpaceConcat([s[0]], s[1..][..|s| - 1 - |r|]);
    }
  }

  /** `s.rstrip()`: drops trailing whitespace. */
  function DropTrailingSpaces(s: string): (r: string)
    ensures |r| <= |s|
    ensures r == [] || !IsSpace(r[|r| - 1])
  {
    if s != [] && IsSpace(s[|s| - 1]) then DropTrailingSpaces(s[..|s| - 1]) else s
  }

  /** What `rstrip` keeps is a prefix, and what it drops is whitespace. */
  lemma {:induction false} TrailingSpaces(s: string)
    ensures s[..|DropTrailingSpaces(s)|] == DropTrailingSpaces(s)
    ensures AllSpace(s[|DropTrailingSpaces(s)|..])
  {
    if s != [] && IsSpace(s[|s| - 1]) {
      var p := s[..|s| - 1];
      var r := DropTrailingSpaces(p);
      TrailingSpaces(p);
      assert s[..|r|] == p[..|r|];
      assert s[|r|..] == p[|r|..] + [s[|s| - 1]];
      AllSpaceConcat(p[|r|..], [s[|s| - 1]]);
    }
  }

  /** `s.strip()`. */
  function Strip(s: string): (r: string)
    ensures NoEdgeSpace(r)
  {
    var t := DropSpaces(s);
    TrailingSpaces(t);
    DropTrailingSpaces(t)
  }

  lemma AllSpaceConcat(a: string, b: string)
    ensures AllSpace(a + b) <==> AllSpace(a) && AllSpace(b)
  {
    var ab := a + b;
    assert forall i :: 0 <= i < |a| ==> ab[i] == a[i];
    assert forall i :: 0 <= i < |b| ==> ab[|a| + i] == b[i];
  }

  lemma BlanksOnlyConcat(a: string, b: string)
    ensures BlanksOnly(a + b) <==> BlanksOnly(a) && BlanksOnly(b)
  {
    var ab := a + b;
    assert forall i :: 0 <= i < |a| ==> ab[i] == a[i];
    assert forall i :: 0 <= i < |b| ==> ab[|a| + i] == b[i];
  }

  /** Two strings join without a double space unless one ends and the
      other begins with whitespace. */
  lemma NoDoubleSpaceConcat(a: string, b: string)
    requires NoDoubleSpace(a) && NoDoubleSpace(b)
    requires a == [] || b == [] || !(IsSpace(a[|a| - 1]) && IsSpace(b[0]))
    ensures NoDoubleSpace(a + b)
  {
    var ab := a + b;
    forall i | 0 <= i < |ab| - 1
      ensures !(IsSpace(ab[i]) && IsSpace(ab[i + 1]))
    {
      if i + 1 < |a| {
        assert ab[i] == a[i] && ab[i + 1] == a[i + 1];
      } else if i + 1 == |a| {
        assert ab[i] == a[|a| - 1] && ab[i + 1] == b[0];
      } else {
        assert ab[i] == b[i - |a|] && ab[i + 1] == b[i - |a| + 1];
      }
    }
  }

  lemma StripEmpty(s: string)
    ensures Strip(s) == [] <==> AllSpace(s)
  {
    var t := DropSpaces(s);
    var r := DropTrailingSpaces(t);
    LeadingSpaces(s);
    TrailingSpaces(t);
    assert s == s[..|s| - |t|] + t;
    AllSpaceConcat(s[..|s| - |t|], t);
    if r == [] {
      assert t[|r|..] == t;
    }
  }

  lemma StripShape(s: string)
    ensures BlanksOnly(s) ==> BlanksOnly(Strip(s))
    ensures NoDoubleSpace(s) ==> NoDoubleSpace(Strip(s))
  {
    var t := DropSpaces(s);
    var r := DropTrailingSpaces(t);
    LeadingSpaces(s);
    TrailingSpaces(t);
    SliceKeepsShape(s, |s| - |t|, |s|);
    SliceKeepsShape(t, 0, |r|);
  }

  lemma StripEdgeFree(s: string)
    requires NoEdgeSpace(s)
    ensures Strip(s) == s
  {
  }

  /** Each maximal run of whitespace becomes one space. */
  function Collapse(s: string): (r: string)
    ensures BlanksOnly(r) && NoDoubleSpace(r)
    ensures r == [] <==> s == []
    ensures r != [] ==> (IsSpace(r[0]) <==> IsSpace(s[0]))
    decreases |s|
  {
    if s == [] then []
    else if IsSpace(s[0]) then " " + Collapse(DropSpaces(s))
    else [s[0]] + Collapse(s[1..])
  }

  lemma {:induction false} CollapseAllSpace(s: string)
    ensures AllSpace(Collapse(s)) <==> AllSpace(s)
    decreases |s|
  {
    if s == [] {
    } else if IsSpace(s[0]) {
      var t := DropSpaces(s);
      LeadingSpaces(s);
      assert s == s[..|s| - |t|] + t;
      if t != [] {
        assert !AllSpace(s) by { assert s[|s| - |t|] == t[0]; }
        assert Collapse(t)[0] == Collapse(s)[1];
      }
    } else {
      assert !AllSpace(s);
    }
  }

  lemma {:induction false} CollapseShaped(s: string)
    requires BlanksOnly(s) && NoDoubleSpace(s)
    ensures Collapse(s) == s
    decreases |s|
  {
    if s != [] {
      var t := s[1..];
      assert s == [s[0]] + t;
      SliceKeepsShape(s, 1, |s|);
      CollapseShaped(t);
      if IsSpace(s[0]) {
        assert t == [] || !IsSpace(t[0]);
        assert DropSpaces(s) == DropSpaces(t) == t;
        assert [s[0]] == " ";
      }
    }
  }

  lemma BlanksOnlyNoNbsp(s: string)
    requires BlanksOnly(s)
    ensures NBSP !in s
  {
    assert IsSpace(NBSP);
  }

  /** `_norm`: the no-break space becomes a space, whitespace runs collapse
      to one space, and the ends are stripped. */
  function Norm(s: string): (r: string)
    ensures IsNormal(r)
    ensures NBSP !in r
  {
    var r := Strip(Collapse(ReplaceAll(s, NBSP, " ")));
    StripShape(Collapse(ReplaceAll(s, NBSP, " ")));
    BlanksOnlyNoNbsp(r);
    r
  }

  /** `_norm` yields the empty string exactly for blank input. */
  lemma NormEmpty(s: string)
    ensures Norm(s) == [] <==> AllSpace(s)
  {
    var a := ReplaceAll(s, NBSP, " ");
    ReplaceSpaceBySpace(s, NBSP, ' ');
    CollapseAllSpace(a);
    StripEmpty(Collapse(a));
  }

  /** `_norm` leaves normal text alone. */
  lemma NormOfNormal(s: string)
    requires IsNormal(s)
    ensures Norm(s) == s
  {
    BlanksOnlyNoNbsp(s);
    assert ReplaceAll(s, NBSP, " ") == s;
    CollapseShaped(s);
    StripEdgeFree(s);
  }

  lemma NormIdempotent(s: string)
    ensures Norm(Norm(s)) == Norm(s)
  {
    NormOfNormal(Norm(s));
  }

  /** The leading run of non-whitespace characters. */
  function TakeWord(s: string): (r: string)
    ensures |r| <= |s| && r == s[..|r|]
    ensures SpaceFree(r)
    ensures |r| == |s| || IsSpace(s[|r|])
  {
    if s == [] || IsSpace(s[0]) then [] else [s[0]] + TakeWord(s[1..])
  }

  /** `s.split()`: the maximal runs of non-whitespace, in order. */
  function SplitWords(s: string): (r: seq<string>)
    ensures forall i :: 0 <= i < |r| ==> r[i] != [] && SpaceFree(r[i])
    decreases |s|
  {
    var t := DropSpaces(s);
    if t == [] then []
    else
      var w := TakeWord(t);
      assert w != [] by { assert TakeWord(t) == [t[0]] + TakeWord(t[1..]); }
      var rest := SplitWords(t[|w|..]);
      var r := [w] + rest;
      assert r[1..] == rest;
      r
  }

  lemma {:induction false} SplitWordsEmpty(s: string)
    ensures SplitWords(s) == [] <==> AllSpace(s)
  {
    var t := DropSpaces(s);
    LeadingSpaces(s);
    assert s == s[..|s| - |t|] + t;
    if t != [] {
      assert s[|s| - |t|] == t[0];
    }
  }

  /** A character absent from `s` is absent from every word of `s`. */
  lemma {:induction false} SplitWordsAvoid(s: string, c: char)
    requires c !in s
    ensures forall i :: 0 <= i < |SplitWords(s)| ==> c !in SplitWords(s)[i]
    decreases |s|
  {
    var t := DropSpaces(s);
    LeadingSpaces(s);
    if t != [] {
      var w := TakeWord(t);
      var u := t[|w|..];
      NotInSlice(s, c, |s| - |t|, |s|);
      NotInSlice(t, c, 0, |w|);
      NotInSlice(t, c, |w|, |t|);
      SplitWordsAvoid(u, c);
      var rest := SplitWords(u);
      var r := SplitWords(s);
      assert r == [w] + rest;
      forall i | 0 <= i < |r|
        ensures c !in r[i]
      {
        if i > 0 {
          assert r[i] == rest[i - 1];
        }
      }
    }
  }

  /** `" ".join(ws)`. */
  function Unwords(ws: seq<string>): (r: string)
    ensures ws != [] && ws[0] != [] ==> r != [] && r[0] == ws[0][0]
    ensures forall x :: x in r ==> x == ' ' || exists i :: 0 <= i < |ws| && x in ws[i]
  {
    if ws == [] then ""
    else if |ws| == 1 then ws[0]
    else
      var r := ws[0] + " " + Unwords(ws[1..]);
      assert forall x :: x in r ==> x == ' ' || x in ws[0] || exists i :: 0 <= i < |ws[1..]| && x in ws[1..][i];
      r
  }

  lemma UnwordsCons(ws: seq<string>)
    requires |ws| > 1
    ensures Unwords(ws) == ws[0] + " " + Unwords(ws[1..])
  {
  }

  /** Words suitable for `Unwords`: non-empty and without whitespace. */
  predicate ProperWords(ws: seq<string>) {
    forall i :: 0 <= i < |ws| ==> ws[i] != [] && SpaceFree(ws[i])
  }

  lemma {:induction false} TakeWordOfJoin(w: string, t: string)
    requires SpaceFree(w)
    requires t == [] || IsSpace(t[0])
    ensures TakeWord(w + t) == w
    decreases |w|
  {
    if w == [] {
      assert w + t == t;
    } else {
      assert (w + t)[1..] == w[1..] + t;
      TakeWordOfJoin(w[1..], t);
    }
  }

  /** Splitting a space-joined list of proper words gives the words back. */
  lemma {:induction false} SplitUnwords(ws: seq<string>)
    requires ProperWords(ws)
    ensures SplitWords(Unwords(ws)) == ws
    decreases |ws|
  {
    if ws == [] {
    } else if |ws| == 1 {
      var w := ws[0];
      assert DropSpaces(w) == w;
      TakeWordOfJoin(w, []);
      assert w + [] == w;
      assert w[|w|..] == [];
    } else {
      var w := ws[0];
      var rest := Unwords(ws[1..]);
      var s := w + " " + rest;
      assert ProperWords(ws[1..]);
      assert DropSpaces(s) == s;
      TakeWordOfJoin(w, " " + rest);
      assert w + (" " + rest) == s;
      assert s[|w|..] == " " + rest;
      assert ws[1..][0] == ws[1];
      assert rest != [] && rest[0] == ws[1][0];
      assert DropSpaces(" " + rest) == rest by {
        assert (" " + rest)[1..] == rest;
      }
      SplitUnwords(ws[1..]);
      assert SplitWords(" " + rest) == SplitWords(rest);
    }
  }

  /** Joining proper words with single spaces gives normal text. */
  lemma {:induction false} UnwordsNormal(ws: seq<string>)
    requires ProperWords(ws)
    ensures IsNormal(Unwords(ws))
    ensures ws != [] ==> Unwords(ws) != []
    decreases |ws|
  {
    if |ws| > 1 {
      var w := ws[0];
      var rest := Unwords(ws[1..]);
      assert ProperWords(ws[1..]);
      UnwordsNormal(ws[1..]);
      var s := w + " " + rest;
      assert rest[0] == ws[1][0];
      forall i | 0 <= i < |s|
        ensures IsSpace(s[i]) ==> s[i] == ' '
        ensures i < |s| - 1 ==> !(IsSpace(s[i]) && IsSpace(s[i + 1]))
      {
        if i < |w| {
          assert s[i] == w[i];
          if i + 1 < |w| {
            assert s[i + 1] == w[i + 1];
          }
        } else if i == |w| {
          assert s[i + 1] == rest[0];
        } else {
          assert s[i] == rest[i - |w| - 1];
          if i + 1 < |s| {
            assert s[i + 1] == rest[i - |w|];
          }
        }
      }
      assert s[|s| - 1] == rest[|rest| - 1];
    }
  }

  /** Joining non-empty normal lines with single spaces gives normal text. */
  lemma {:induction false} UnwordsNormalLines(ws: seq<string>)
    requires forall i :: 0 <= i < |ws| ==> ws[i] != [] && IsNormal(ws[i])
    ensures IsNormal(Unwords(ws))
    decreases |ws|
  {
    if |ws| > 1 {
      var w := ws[0];
      assert forall i :: 0 <= i < |ws[1..]| ==> ws[1..][i] == ws[i + 1];
      UnwordsNormalLines(ws[1..]);
      var rest := Unwords(ws[1..]);
      assert rest != [] && rest[0] == ws[1][0];
      BlanksOnlyConcat(w, " ");
      BlanksOnlyConcat(w + " ", rest);
      NoDoubleSpaceConcat(w, " ");
      NoDoubleSpaceConcat(w + " ", rest);
      var s := w + " " + rest;
      assert s[0] == w[0] && s[|s| - 1] == rest[|rest| - 1];
    }
  }

  /* ---- `_norm` is `" ".join(s.split())` ---- */

  /** A leading whitespace character does not change the words. */
  lemma SplitSpaceHead(s: string)
    requires s != [] && IsSpace(s[0])
    ensures SplitWords(s) == SplitWords(s[1..])
  {
  }

  /** Dropping leading whitespace does not change the words. */
  lemma SplitDropSpaces(s: string)
    ensures SplitWords(DropSpaces(s)) == SplitWords(s)
  {
    var t := DropSpaces(s);
    assert DropSpaces(t) == t;
  }

  /** A non-whitespace character in front starts a new word when what
      follows is empty or starts with whitespace, and otherwise joins the
      first word. */
  lemma SplitWordHead(c: char, x: string)
    requires !IsSpace(c)
    ensures (x == [] || IsSpace(x[0])) ==> SplitWords([c] + x) == [[c]] + SplitWords(x)
    ensures (x != [] && !IsSpace(x[0])) ==>
      SplitWords(x) != [] && SplitWords([c] + x) == [[c] + SplitWords(x)[0]] + SplitWords(x)[1..]
  {
    var s := [c] + x;
    assert DropSpaces(s) == s;
    assert s[1..] == x;
    assert TakeWord(s) == [c] + TakeWord(x);
    if x == [] || IsSpace(x[0]) {
      assert s[1..] == x;
    } else {
      assert DropSpaces(x) == x;
      var w := TakeWord(x);
      assert s[|w| + 1..] == x[|w|..];
    }
  }

  /** Two texts of the same length, whitespace at the same positions and the
      same characters elsewhere. */
  predicate SpacedAlike(a: string, b: string) {
    && |a| == |b|
    && forall i :: 0 <= i < |a| ==> (IsSpace(a[i]) <==> IsSpace(b[i])) && (!IsSpace(a[i]) ==> a[i] == b[i])
  }

  /** Texts spaced alike have the same words. */
  lemma {:induction false} SplitSpacedAlike(a: string, b: string)
    requires SpacedAlike(a, b)
    ensures SplitWords(a) == SplitWords(b)
    decreases |a|
  {
    if a != [] {
      assert SpacedAlike(a[1..], b[1..]) by {
        assert forall i :: 0 <= i < |a| - 1 ==> a[1..][i] == a[i + 1] && b[1..][i] == b[i + 1];
      }
      SplitSpacedAlike(a[1..], b[1..]);
      if IsSpace(a[0]) {
        SplitSpaceHead(a);
        SplitSpaceHead(b);
      } else {
        assert a == [a[0]] + a[1..] && b == [a[0]] + b[1..];
        assert |a| > 1 ==> a[1..][0] == a[1] && b[1..][0] == b[1];
        SplitWordHead(a[0], a[1..]);
        SplitWordHead(a[0], b[1..]);
      }
    }
  }

  /** Replacing a character by a single one changes only that character's
      positions. */
  lemma {:induction false} ReplaceOneChar(s: string, c: char, d: char)
    ensures |ReplaceAll(s, c, [d])| == |s|
    ensures forall i :: 0 <= i < |s| ==> ReplaceAll(s, c, [d])[i] == if s[i] == c then d else s[i]
  {
    if s != [] {
      ReplaceOneChar(s[1..], c, d);
      var r := ReplaceAll(s, c, [d]);
      var t := ReplaceAll(s[1..], c, [d]);
      assert r == [if s[0] == c then d else s[0]] + t;
      assert forall i :: 1 <= i < |s| ==> r[i] == t[i - 1] && s[i] == s[1..][i - 1];
    }
  }

  /** Replacing one whitespace character by another keeps the words. */
  lemma SplitReplaceSpace(s: string, c: char, d: char)
    requires IsSpace(c) && IsSpace(d)
    ensures SplitWords(ReplaceAll(s, c, [d])) == SplitWords(s)
  {
    ReplaceOneChar(s, c, d);
    SplitSpacedAlike(ReplaceAll(s, c, [d]), s);
  }

  /** Collapsing whitespace runs keeps the words. */
  lemma {:induction false} SplitCollapse(t: string)
    ensures SplitWords(Collapse(t)) == SplitWords(t)
    decreases |t|
  {
    if t != [] {
      if IsSpace(t[0]) {
        var u := DropSpaces(t);
        assert |u| < |t|;
        SplitCollapse(u);
        var x := " " + Collapse(u);
        assert x[1..] == Collapse(u);
        SplitSpaceHead(x);
        SplitDropSpaces(t);
      } else {
        var u := t[1..];
        SplitCollapse(u);
        assert t == [t[0]] + u;
        SplitWordHead(t[0], u);
        SplitWordHead(t[0], Collapse(u));
      }
    }
  }

  /** Trailing whitespace does not change the words. */
  lemma {:induction false} SplitTrailing(p: string, q: string)
    requires AllSpace(q)
    ensures SplitWords(p + q) == SplitWords(p)
    decreases |p|
  {
    if p == [] {
      assert p + q == q;
      SplitWordsEmpty(q);
      SplitWordsEmpty(p);
    } else {
      var x := p + q;
      assert x[0] == p[0] && x[1..] == p[1..] + q;
      SplitTrailing(p[1..], q);
      if IsSpace(p[0]) {
        SplitSpaceHead(x);
        SplitSpaceHead(p);
      } else {
        assert x == [p[0]] + (p[1..] + q);
        assert p == [p[0]] + p[1..];
        assert p[1..] == [] ==> p[1..] + q == q;
        assert p[1..] != [] ==> (p[1..] + q)[0] == p[1..][0];
        SplitWordHead(p[0], p[1..] + q);
        SplitWordHead(p[0], p[1..]);
      }
    }
  }

  /** Stripping keeps the words. */
  lemma SplitStrip(u: string)
    ensures SplitWords(Strip(u)) == SplitWords(u)
  {
    var t := DropSpaces(u);
    var r := DropTrailingSpaces(t);
    SplitDropSpaces(u);
    TrailingSpaces(t);
    assert t == r + t[|r|..];
    SplitTrailing(r, t[|r|..]);
  }

  /** In normal text, a first word that is not the whole text is followed
      by one plain space and a normal, non-empty rest. */
  lemma NormalRest(x: string)
    requires IsNormal(x) && x != [] && |TakeWord(x)| < |x|
    ensures |TakeWord(x)| + 1 < |x| && x[|TakeWord(x)|] == ' '
    ensures IsNormal(x[|TakeWord(x)| + 1..]) && x[|TakeWord(x)| + 1..] != []
  {
    var n := |TakeWord(x)|;
    assert IsSpace(x[n]);
    assert n + 1 < |x|;
    assert !IsSpace(x[n + 1]);
    var y := x[n + 1..];
    SliceKeepsShape(x, n + 1, |x|);
    assert y[0] == x[n + 1] && y[|y| - 1] == x[|x| - 1];
  }

  /** The words of normal text: its first word, then the words after the
      space that ends it. */
  lemma NormalSplitStep(x: string)
    requires IsNormal(x) && x != [] && |TakeWord(x)| < |x|
    ensures |TakeWord(x)| + 1 < |x|
    ensures SplitWords(x) == [TakeWord(x)] + SplitWords(x[|TakeWord(x)| + 1..])
  {
    NormalRest(x);
    var n := |TakeWord(x)|;
    var y := x[n + 1..];
    assert DropSpaces(x) == x;
    assert DropSpaces(x[n..]) == y by {
      assert x[n..][1..] == y;
      assert y[0] == x[n + 1];
    }
    SplitDropSpaces(x[n..]);
  }

  /** Normal text that is a single word is its own only word. */
  lemma NormalOneWord(x: string)
    requires IsNormal(x) && x != [] && |TakeWord(x)| == |x|
    ensures Unwords(SplitWords(x)) == x
  {
    var w := TakeWord(x);
    assert DropSpaces(x) == x;
    assert x[|w|..] == [];
    assert SplitWords(x) == [w];
  }

  /** Normal text whose rest after the first word is its words joined is
      itself its words joined. */
  lemma NormalJoinStep(x: string)
    requires IsNormal(x) && x != [] && |TakeWord(x)| < |x|
    requires |TakeWord(x)| + 1 < |x| && Unwords(SplitWords(x[|TakeWord(x)| + 1..])) == x[|TakeWord(x)| + 1..]
    ensures Unwords(SplitWords(x)) == x
  {
    var w := TakeWord(x);
    var y := x[|w| + 1..];
    NormalRest(x);
    NormalSplitStep(x);
    SplitWordsEmpty(y);
    var ws := SplitWords(x);
    assert SplitWords(y) != [] by {
      assert !IsSpace(y[0]);
    }
    HeadConcat([w], SplitWords(y));
    UnwordsCons(ws);
    CutAround(x, |w|);
  }

  /** Normal text is its words joined by single spaces. */
  lemma {:induction false} NormalIsJoinedSplit(x: string)
    requires IsNormal(x)
    ensures Unwords(SplitWords(x)) == x
    decreases |x|
  {
    if x != [] {
      var w := TakeWord(x);
      if |w| < |x| {
        NormalRest(x);
        NormalIsJoinedSplit(x[|w| + 1..]);
        NormalJoinStep(x);
      } else {
        NormalOneWord(x);
      }
    }
  }

  /** `_norm(s)` equals `" ".join(s.split())`: both replace every whitespace
      run by one space and drop the ends. */
  lemma NormIsJoinedSplit(s: string)
    ensures Norm(s) == Unwords(SplitWords(s))
  {
    var a := ReplaceAll(s, NBSP, " ");
    assert IsSpace(NBSP) && IsSpace(' ');
    SplitReplaceSpace(s, NBSP, ' ');
    SplitCollapse(a);
    SplitStrip(Collapse(a));
    NormalIsJoinedSplit(Norm(s));
  }

  /* ---- Words across a whitespace boundary ---- */

  /** A text with whitespace on one side of a cut splits into the words of
      the part before the cut followed by the words of the part after it. */
  lemma {:induction false} SplitConcat(a: string, b: string)
    requires a == [] || b == [] || IsSpace(a[|a| - 1]) || IsSpace(b[0])
    ensures SplitWords(a + b) == SplitWords(a) + SplitWords(b)
    decreases |a|
  {
    if a == [] {
      assert a + b == b;
    } else if b == [] {
      assert a + b == a;
    } else {
      if a[1..] != [] {
        assert a[1..][|a[1..]| - 1] == a[|a| - 1];
      }
      SplitConcat(a[1..], b);
      if IsSpace(a[0]) {
        SplitConcatSpaceStep(a, b);
      } else {
        SplitConcatWordStep(a, b);
      }
    }
  }

  /** The step of `SplitConcat` past a leading whitespace character. */
  lemma SplitConcatSpaceStep(a: string, b: string)
    requires a != [] && IsSpace(a[0])
    requires SplitWords(a[1..] + b) == SplitWords(a[1..]) + SplitWords(b)
    ensures SplitWords(a + b) == SplitWords(a) + SplitWords(b)
  {
    assert (a + b)[0] == a[0] && (a + b)[1..] == a[1..] + b;
    SplitSpaceHead(a + b);
    SplitSpaceHead(a);
  }

  /** The step of `SplitConcat` past a leading non-whitespace character. */
  lemma SplitConcatWordStep(a: string, b: string)
    requires a != [] && b != [] && !IsSpace(a[0])
    requires IsSpace(a[|a| - 1]) || IsSpace(b[0])
    requires SplitWords(a[1..] + b) == SplitWords(a[1..]) + SplitWords(b)
    ensures SplitWords(a + b) == SplitWords(a) + SplitWords(b)
  {
    var c, y := a[0], a[1..];
    ConsConcat(a, b);
    if y == [] {
      assert y + b == b;
      assert SplitWords([c] + b) == [[c]] + SplitWords(b) by {
        SplitWordHead(c, b);
      }
      SplitOneWord([c]);
    } else if IsSpace(y[0]) {
      SplitBeforeSpace(c, y, b);
    } else {
      SplitIntoWord(c, y, b);
    }
  }

  /** `SplitConcatWordStep` when a whitespace character follows the first. */
  lemma SplitBeforeSpace(c: char, y: string, b: string)
    requires !IsSpace(c) && y != [] && IsSpace(y[0])
    requires SplitWords(y + b) == SplitWords(y) + SplitWords(b)
    ensures SplitWords([c] + (y + b)) == SplitWords([c] + y) + SplitWords(b)
  {
    var yb := y + b;
    assert yb[0] == y[0];
    assert SplitWords([c] + yb) == [[c]] + SplitWords(yb) by {
      SplitWordHead(c, yb);
    }
    assert SplitWords([c] + y) == [[c]] + SplitWords(y) by {
      SplitWordHead(c, y);
    }
    ConcatAssoc([[c]], SplitWords(y), SplitWords(b));
  }

  /** `SplitConcatWordStep` when the first word goes on past the first
      character. */
  lemma SplitIntoWord(c: char, y: string, b: string)
    requires !IsSpace(c) && y != [] && !IsSpace(y[0])
    requires SplitWords(y + b) == SplitWords(y) + SplitWords(b)
    ensures SplitWords([c] + (y + b)) == SplitWords([c] + y) + SplitWords(b)
  {
    var yb := y + b;
    assert yb[0] == y[0];
    var wy, wb := SplitWords(y), SplitWords(b);
    assert wy != [] && SplitWords([c] + y) == [[c] + wy[0]] + wy[1..] by {
      SplitWordHead(c, y);
    }
    assert SplitWords([c] + yb) == [[c] + SplitWords(yb)[0]] + SplitWords(yb)[1..] by {
      SplitWordHead(c, yb);
    }
    HeadConcat(wy, wb);
    ConcatAssoc([[c] + wy[0]], wy[1..], wb);
  }

  /** Non-empty text without whitespace is one word. */
  lemma SplitOneWord(w: string)
    requires w != [] && SpaceFree(w)
    ensures SplitWords(w) == [w]
  {
    assert DropSpaces(w) == w;
    assert TakeWord(w) == w;
    assert w[|w|..] == [];
  }

  /** A text with a word splits into leading whitespace, its first word,
      and a rest that is empty or starts with whitespace. */
  lemma FirstWord(s: string) returns (p: string, v: string, u: string)
    requires SplitWords(s) != []
    ensures s == p + v + u
    ensures p == [] || IsSpace(p[|p| - 1])
    ensures v != [] && SpaceFree(v)
    ensures u == [] || IsSpace(u[0])
    ensures SplitWords(s) == [v] + SplitWords(u)
  {
    var t := DropSpaces(s);
    LeadingSpaces(s);
    p := s[..|s| - |t|];
    CutAt(s, |s| - |t|);
    v := TakeWord(t);
    assert v != [] by { assert TakeWord(t) == [t[0]] + TakeWord(t[1..]); }
    u := t[|v|..];
    CutAt(t, |v|);
    ConcatAssoc(p, v, u);
  }

  /** A word of a text stands between whitespace or the text's ends. */
  lemma {:induction false} WordInContext(s: string, w: string) returns (a: string, b: string)
    requires w in SplitWords(s)
    ensures s == a + w + b
    ensures a == [] || IsSpace(a[|a| - 1])
    ensures b == [] || IsSpace(b[0])
    decreases |s|
  {
    var p, v, u := FirstWord(s);
    if w == v {
      a, b := p, u;
    } else {
      assert w in SplitWords(u);
      var a1, b1 := WordInContext(u, w);
      assert a1 != [] by {
        var i :| 0 <= i < |SplitWords(u)| && SplitWords(u)[i] == w;
        assert w != [] && !IsSpace(w[0]);
        assert u != [] && IsSpace(u[0]);
      }
      a, b := p + v + a1, b1;
      ConcatRegroup(p + v, a1, w, b1);
      assert a[|a| - 1] == a1[|a1| - 1];
    }
  }

  lemma CutAt<T>(x: seq<T>, k: nat)
    requires k <= |x|
    ensures x == x[..k] + x[k..]
  {
  }

  lemma CutAround<T>(x: seq<T>, k: nat)
    requires k < |x|
    ensures x == x[..k] + [x[k]] + x[k + 1..]
  {
  }

  lemma ConsConcat<T>(a: seq<T>, b: seq<T>)
    requires a != []
    ensures a == [a[0]] + a[1..] && a + b == [a[0]] + (a[1..] + b)
  {
  }

  lemma HeadConcat<T>(x: seq<T>, z: seq<T>)
    requires x != []
    ensures (x + z)[0] == x[0] && (x + z)[1..] == x[1..] + z
  {
  }

  lemma ConcatAssoc<T>(x: seq<T>, y: seq<T>, z: seq<T>)
    ensures (x + y) + z == x + (y + z)
  {
  }

  lemma ConcatRegroup(x: string, a: string, w: string, b: string)
    ensures x + (a + w + b) == (x + a) + w + b
  {
  }

  /** Replacing a non-whitespace character by a space keeps every word
      that does not contain it. */
  lemma SplitReplaceKeeps(s: string, c: char, w: string)
    requires !IsSpace(c)
    requires w in SplitWords(s) && c !in w
    ensures w in SplitWords(ReplaceAll(s, c, " "))
  {
    var a, b := WordInContext(s, w);
    var i :| 0 <= i < |SplitWords(s)| && SplitWords(s)[i] == w;
    ReplaceAllConcat(a + w, b, c, " ");
    ReplaceAllConcat(a, w, c, " ");
    var ra, rb := ReplaceAll(a, c, " "), ReplaceAll(b, c, " ");
    assert ReplaceAll(w, c, " ") == w;
    assert ReplaceAll(a + w, c, " ") == ra + w;
    assert ReplaceAll(s, c, " ") == (ra + w) + rb;
    ConcatAssoc(ra, w, rb);
    if a != [] {
      ReplaceOneChar(a, c, ' ');
      assert a[|a| - 1] != c;
      assert ra[|ra| - 1] == a[|a| - 1];
    }
    if b != [] {
      ReplaceOneChar(b, c, ' ');
      assert b[0] != c;
      assert rb[0] == b[0];
    }
    SplitConcat(ra, w + rb);
    SplitConcat(w, rb);
    SplitOneWord(w);
  }

  /** `s.splitlines()`: the lines between line boundaries, a CR LF pair
      counting as one boundary and no empty piece after a final boundary. */
  function SplitLines(s: string): (r: seq<string>)
    ensures forall i :: 0 <= i < |r| ==> SingleLine(r[i])
    ensures r == [] <==> s == []
    decreases |s|
  {
    if s == [] then []
    else
      var i := LineEnd(s);
      if i == |s| then [s]
      else
        var next := if s[i] == '\r' && i + 1 < |s| && s[i + 1] == '\n' then i + 2 else i + 1;
        [s[..i]] + SplitLines(s[next..])
  }

  /** The index of the first line break in `s`, or `|s|` when there is none. */
  function LineEnd(s: string): (i: nat)
    ensures i <= |s|
    ensures i < |s| ==> IsLineBreak(s[i])
    ensures SingleLine(s[..i])
  {
    if s == [] || IsLineBreak(s[0]) then 0
    else
      var j := LineEnd(s[1..]);
      assert s[..j + 1] == [s[0]] + s[1..][..j];
      1 + j
  }

  /** A code point the regular-expression class `\w` matches: ASCII letters,
      digits and `_`, and the letters and digits of Latin-1 and Latin
      Extended-A. */
  predicate IsWordChar(c: char) {
    || ('0' <= c <= '9') || ('A' <= c <= 'Z') || ('a' <= c <= 'z') || c == '_'
    || c == '\U{AA}' || c == '\U{B2}' || c == '\U{B3}' || c == '\U{B5}' || c == '\U{B9}' || c == '\U{BA}'
    || ('\U{BC}' <= c <= '\U{BE}')
    || ('\U{C0}' <= c <= '\U{FF}' && c != '\U{D7}' && c != '\U{F7}')
    || ('\U{100}' <= c <= '\U{17F}')
  }

  /** One or more ASCII digits and nothing else: a bare number. */
  predicate IsDigits(w: string) {
    |w| > 0 && forall i :: 0 <= i < |w| ==> '0' <= w[i] <= '9'
  }

  /** The number of entries of `ws` that are in `known`, as the teacher
      and location line tests tally them. */
  function CountIn(ws: seq<string>, known: set<string>): (n: nat)
    ensures n <= |ws|
    ensures n == |ws| <==> forall i :: 0 <= i < |ws| ==> ws[i] in known
    ensures n == 0 <==> forall i :: 0 <= i < |ws| ==> ws[i] !in known
  {
    if ws == [] then 0
    else
      var rest := CountIn(ws[1..], known);
      assert forall i :: 1 <= i < |ws| ==> ws[i] == ws[1..][i - 1];
      (if ws[0] in known then 1 else 0) + rest
  }

  /** Two entries outside `known` leave at most `|ws| - 2` inside it. */
  lemma {:induction false} CountInTwoMisses(ws: seq<string>, known: set<string>, i: nat, j: nat)
    requires i < j < |ws|
    requires ws[i] !in known && ws[j] !in known
    ensures CountIn(ws, known) <= |ws| - 2
    decreases |ws|
  {
    if i == 0 {
      assert ws[1..][j - 1] == ws[j];
      assert CountIn(ws[1..], known) < |ws| - 1;
    } else {
      assert ws[1..][i - 1] == ws[i] && ws[1..][j - 1] == ws[j];
      CountInTwoMisses(ws[1..], known, i - 1, j - 1);
    }
  }

  /** The lines of a whitespace-only text are whitespace-only. */
  lemma {:induction false} SplitLinesAllSpace(s: string)
    requires AllSpace(s)
    ensures forall i :: 0 <= i < |SplitLines(s)| ==> AllSpace(SplitLines(s)[i])
    decreases |s|
  {
    if s != [] {
      var i := LineEnd(s);
      if i < |s| {
        var next := if s[i] == '\r' && i + 1 < |s| && s[i + 1] == '\n' then i + 2 else i + 1;
        var u := s[next..];
        assert AllSpace(u) by {
          forall k | 0 <= k < |u|
            ensures IsSpace(u[k])
          {
            assert u[k] == s[next + k];
          }
        }
        SplitLinesAllSpace(u);
        var first := s[..i];
        assert AllSpace(first) by {
          forall k | 0 <= k < i
            ensures IsSpace(first[k])
          {
            assert first[k] == s[k];
          }
        }
        var rest := SplitLines(u);
        var r := SplitLines(s);
        assert r == [first] + rest;
        forall j | 0 <= j < |r|
          ensures AllSpace(r[j])
        {
          if j > 0 {
            assert r[j] == rest[j - 1];
          }
        }
      } else {
        assert SplitLines(s) == [s];
      }
    }
  }
}
